=== FILE: README.md ===
# Kanban board: the ordered-column position manager

A Dafny model of the core of a Kanban board. Each task has a `column_id` and an integer
`position`. The board relies on one invariant: in every column, the positions used are
exactly 0, 1, ..., n-1, each used once. The model covers the pieces that keep, read or
mirror that ordering: moving and creating tasks on the server, reading the board, and
the client's copy of it. The server's delete handler (`api/tasks/[id].ts`) also writes the
ordering but is not part of this model (see "Left out"):

- **The server's move handler** (`api/tasks/move.ts`). Module `MoveHandler`. Each
  `UPDATE ... WHERE` is a bulk range update on a map from task id to row.
- **The board query** (`api/board.ts`). Module `BoardBuilder`. It turns the position-ordered
  rows into `columnOrder`, per-column `taskIds` and `tasks`.
- **Task creation** (`api/tasks.ts`). Module `CreateHandler`. Covers the next-position
  query, the insert and its constraint failures, tag insert-or-ignore, and linking.
- **The client's board hook** (`src/hooks/useBoard.ts`). Module `UseBoard`. Covers the
  optimistic `moveTask`, `addTask`, `updateTask` and `deleteTask`, and the refetch on failure.
- **The task form** (`src/components/TaskModal.tsx`). Module `TaskModal`. Covers title and
  priority handling, tag parsing and the tag field's default text.
- **Drag handling** (`src/components/Board.tsx`). Module `DragIntent`. Covers which move a
  drag-over or drag-end asks for, and which tasks a column shows.

Four modules support these:

- `Common`: identifiers, `Option`, and JavaScript truthiness and `||`.
- `JsArray`: JavaScript `indexOf`, both `splice` forms (including the clamp on the start
  index) and `filter`.
- `Store`: the tables, the contiguity invariant and its equivalent "arrangement" form.
- `Projection`: the client's board state.

`Agreement` ties the two sides together. A board fetched from a contiguous table mirrors
it: every column's `taskIds` lists that column in position order. A move that both sides
apply to an in-range index keeps the client's lists equal to the server's position order.

Two behaviours of the move handler break the ordering:

- **No clamping on the server.** `api/tasks/move.ts` writes `destinationIndex` as given
  (move.ts:78); it does not turn an index past the end into the tail. The client's
  `splice` does clamp. `RelocationPastEndLeavesGap` shows that the server's write leaves a
  gap in the destination column.
- **Source column trusted.** The handler reads the task's position by id alone
  (move.ts:19-21) and takes the client's `sourceColumnId` on trust.
  `MisnamedSourceLeavesGap` and `MisnamedSlideKeepsColumn` show what a wrong one does to
  the task's real column.

Inputs the code takes from the environment are parameters:

- timestamps (`now`) and the generated task id (`x`);
- the network's answers (`Option` values and success flags);
- the board saved in `localStorage`.

## Model

| member | source | states |
|---|---|---|
| MoveHandler.Handle | api/tasks/move.ts:4-88 | A non-PUT request gets 405, a request missing a field gets 400 and an unknown task id gets 404, each with the table unchanged. Otherwise the answer is 200. A same-column move slides exactly the rows of that column strictly between the old and new slot (inclusive of the new one) one step toward the old slot. A cross-column move closes the source gap above the old slot and opens the destination at `d`. The task lands at `d`, and no row outside those ranges changes. |
| MoveHandler.Reorder | api/tasks/move.ts:29-56 | The same-column branch keeps the set of task ids. The task takes slot `d` with the new timestamp. In the named column, rows strictly after the old slot and up to `d` have their position lowered by one. Rows from `d` to just before the old slot have it raised by one. Every other row is unchanged. |
| MoveHandler.Relocate | api/tasks/move.ts:57-80 | The cross-column branch keeps the set of task ids. The task takes `(destination, d)` with the new timestamp. Source rows after the old slot have their position lowered by one. Destination rows at or after `d` have it raised by one. Every other row is unchanged. |
| MoveHandler.SameSlotKeepsEveryPlace | api/tasks/move.ts:29-56 | Moving a task to the position it already holds leaves every task's column and position as they were. |
| MoveHandler.MoveTouchesNamedColumnsOnly | api/tasks/move.ts:57-80 | A successful move leaves every column other than the two it names, and not holding the task, row for row unchanged. |
| MoveHandler.ReorderSlides | api/tasks/move.ts:29-56 | A same-column move on a known task succeeds. It is a slide: the task takes slot `d` and the rows of its column in between shift by one toward the vacated slot. |
| MoveHandler.RelocateRelocates | api/tasks/move.ts:57-80 | A cross-column move on a known task succeeds. It is a relocation: source rows above the task move down, destination rows at or after `d` move up, and the task takes `(destination, d)`. |
| MoveHandler.SlideFollowsSplice | api/tasks/move.ts:29-56 | On a column listed in position order, the server's slide lists the column exactly as the client's "remove, then insert at `d`" splice does. |
| MoveHandler.RelocationClosesSource | api/tasks/move.ts:59-65 | After a relocation, the source column is listed in position order by its old list with the task spliced out. |
| MoveHandler.RelocationOpensDestination | api/tasks/move.ts:67-80 | For `d` between 0 and the destination's length, the destination column after a relocation is listed in position order by its old list with the task spliced in at `d`. |
| MoveHandler.SlideKeepsOrder | api/tasks/move.ts:29-56 | A slide keeps a contiguous column contiguous exactly when `d` is at least 0 and below the column's length, and leaves every other column's contiguity as it was. |
| MoveHandler.RelocationKeepsOrder | api/tasks/move.ts:57-81 | A relocation from the task's real column always keeps the source contiguous. It keeps the destination contiguous exactly when `d` lies between 0 and the destination's length. Other columns keep their state. |
| MoveHandler.RelocationPastEndLeavesGap | api/tasks/move.ts:67-79 | A destination index below 0 or past the destination's size is written verbatim (no clamping), so the destination stops being contiguous. |
| MoveHandler.ReorderKeepsOrder | api/tasks/move.ts:29-56 | The contiguity invariant under a full same-column request: the column stays contiguous exactly for an in-range index, and no other column's state changes. |
| MoveHandler.RelocateKeepsOrder | api/tasks/move.ts:57-81 | The contiguity invariant under a full cross-column request from the task's real column: the source stays contiguous, and the destination stays contiguous exactly when `d` lies between 0 and the destination's length. |
| MoveHandler.MisnamedSourceLeavesGap | api/tasks/move.ts:19-27 | The position is read by id alone. A cross-column request whose source and destination both differ from the task's real column takes the task out of that column without closing the gap. This breaks the column's contiguity whenever the task was not last. |
| MoveHandler.MisnamedSlideKeepsColumn | api/tasks/move.ts:29-56 | A same-column request naming a column other than the task's real one shifts only that other column's rows, then writes `d` into the task, which stays in its column. The real column stays contiguous exactly when `d` is the task's current position. |
| MoveHandler.LeavingOpensGap | api/tasks/move.ts:19-27 | When a task leaves a contiguous column from any slot but the last, and no other row of that column changes, the column is no longer contiguous. |
| MoveHandler.RewritingKeepsOnlySame | api/tasks/move.ts:29-56 | When a task is rewritten in place inside a contiguous column and no other row of the column changes, the column stays contiguous exactly when the task's position is unchanged. |
| JsArray.IndexOf | src/hooks/useBoard.ts:157-158 | `indexOf` is -1 exactly when the element is absent; otherwise it is the first index holding the element. |
| JsArray.IndexOfNoDup | src/hooks/useBoard.ts:157 | In a list without repeats, `indexOf` of the element at `i` is `i`. |
| JsArray.RemoveAt | src/hooks/useBoard.ts:160 | `splice(i, 1)` drops exactly the element at `i` and shifts the later ones down by one. |
| JsArray.SpliceStart | src/hooks/useBoard.ts:163-165 | The start index `splice` really uses: negative values count from the end, and the result is clamped into `[0, len]`. |
| JsArray.InsertAt | src/hooks/useBoard.ts:163-165 | `splice(start, 0, x)` puts `x` at the clamped start, keeping the elements before it and moving those after it up by one. |
| JsArray.RemoveInsertPermutes | src/hooks/useBoard.ts:160-163 | Removing an element and re-inserting it anywhere keeps the same multiset of ids. |
| JsArray.RemoveInsertSameIndex | src/hooks/useBoard.ts:160-163 | Removing an element and re-inserting it at its own index gives back the original list. |
| JsArray.Without | src/hooks/useBoard.ts:129 | `filter((id) => id !== x)` removes every `x` and keeps every other element with its multiplicity. It adds nothing, and it is the identity when `x` is absent. |
| JsArray.WithoutAppend | src/hooks/useBoard.ts:129 | Filtering a concatenation is concatenating the filtered parts, so the kept ids stay in their relative order. |
| JsArray.WithoutSingle | src/hooks/useBoard.ts:129 | When `x` occurs once, filtering it out is the same as splicing out its index. |
| UseBoard.FetchBoard | src/hooks/useBoard.ts:17-38 | A fetched board replaces the state and clears the error. On failure, the saved board is loaded if there is one and the current board is kept otherwise; the error message is set in both cases. |
| UseBoard.MoveTask | src/hooks/useBoard.ts:148-186 | The updater throws exactly when the source, or a distinct destination, is undefined. It returns the previous state when the task is not listed in the source. Otherwise it moves the task to the destination column, stamps `updatedAt`, and leaves every other column and task unchanged. |
| UseBoard.MoveWithin | src/hooks/useBoard.ts:157-163 | The same-column branch touches only the named column's list and the task's entry. The entry names the column and `now`, and the column keeps its id and title. |
| UseBoard.MoveAcross | src/hooks/useBoard.ts:157-166 | The cross-column branch touches only the two named columns' lists and the task's entry. The entry names the destination and `now`, and both columns keep their ids and titles. |
| UseBoard.MoveWithinPermutes | src/hooks/useBoard.ts:152-163 | A same-column move keeps the column's multiset of ids and its length. |
| UseBoard.MoveWithinToOwnIndex | src/hooks/useBoard.ts:152-163 | Moving a task to its current index leaves all column lists unchanged. |
| UseBoard.MoveAcrossSplices | src/hooks/useBoard.ts:152-166 | A cross-column move removes the first occurrence of the task from the source and keeps the others in order. It inserts the task into the destination at the smaller of `d` and the destination's length, for `d >= 0`. |
| UseBoard.MoveAndSync | src/hooks/useBoard.ts:141-209 | The optimistic update is kept when the request succeeds. When it fails, the refetch replaces the state, falling back to the saved board and then to the optimistic one. |
| UseBoard.AddTask | src/hooks/useBoard.ts:44-73 | A created task gets its entry, and its id is appended at the tail of its own column only. A failed request only sets the error. An undefined column makes the updater throw. |
| UseBoard.UpdateTask | src/hooks/useBoard.ts:78-101 | A successful update replaces only that task's entry and changes no column. A failed one only sets the error. |
| UseBoard.DeleteTask | src/hooks/useBoard.ts:106-137 | An id the callback does not know is a no-op. A failed request only sets the error. A success removes the task's entry and leaves every other entry as it was. Its column becomes the same column with the id filtered out of its list: every occurrence of the id goes and the other ids stay, in order. The other columns are unchanged. |
| UseBoard.DeleteSplicesOut | src/hooks/useBoard.ts:118-133 | When the id occurs once in its column, deletion is exactly splicing out its index. |
| BoardBuilder.ToTask | api/board.ts:54-63 | A task row becomes a client task with the same id, column and tags. A NULL description becomes `''`. |
| BoardBuilder.InitColumns | api/board.ts:43-50 | `columnOrder` is the column rows' ids in query order. Every column row has an entry, and every entry comes from a column row with its title. |
| BoardBuilder.FilledLists | api/board.ts:53-68 | After the row loop, each column's list is its initial list followed by the ids of that column's rows, in row order. |
| BoardBuilder.RecordedRecords | api/board.ts:53-63 | After the row loop, every row's id has an entry, and every entry is the client task built from a row with that id. |
| BoardBuilder.AddRows | api/board.ts:53-68 | After the row loop, each column's list is its initial list followed by the ids of that column's rows, in row order. Every row has an entry in `tasks`, and every entry is the client task built from a row with that id. The loop computes the same maps as the recursive definitions `Filled` and `Recorded`. |
| BoardBuilder.RecordedCovers | api/board.ts:53-63 | After the row loop, every row's id has an entry. |
| BoardBuilder.RecordedFromRows | api/board.ts:53-63 | After the row loop, every entry is the client task built from some row with that id. |
| BoardBuilder.Build | api/board.ts:37-74 | The built board has `columnOrder` in column-row order and one entry per column row. Each column lists exactly the ids of its own rows, in row order, and `tasks` records every row. |
| BoardBuilder.BuiltColumnOrder | api/board.ts:11-50 | When the column rows are those the query returns for the table, `columnOrder` lists every column of the table exactly once, in ascending column position. The board has an entry for exactly those columns, each with its stored title. |
| BoardBuilder.RowsInByPosition | api/board.ts:34 | Rows returned in ascending position stay in ascending position when restricted to one column. |
| BoardBuilder.IdsInNoDup | api/board.ts:65-66 | With distinct row ids, no column lists an id twice. |
| BoardBuilder.ListedOnce | api/board.ts:65-66 | With distinct row ids, a task id is listed under at most one column. |
| BoardBuilder.ListedUnderOwnColumn | api/board.ts:65-66 | A row's id is listed only under the column its `column_id` names. |
| BoardBuilder.OrphanListedNowhere | api/board.ts:65-67 | A task whose `column_id` names no column is in `tasks` but in no column's `taskIds`. |
| Agreement.RowsArrange | api/board.ts:30-35 | The rows of a contiguous column, in query order, list that column in position order. |
| Agreement.FetchMirrors | api/board.ts:53-67 | A board built from the query rows of a table whose columns are all contiguous mirrors the table. Each column lists its tasks in position order, and the client knows exactly the server's tasks, each under its server column. |
| Agreement.MoveTaskSplices | src/hooks/useBoard.ts:152-166 | On a mirroring board, the client's move finds the task at the index equal to its server position, and splices it at that index. |
| Agreement.SlideAgrees | src/hooks/useBoard.ts:160-163 | After a same-column move to an in-range index, the client's spliced list equals the column sorted by the server's new positions. |
| Agreement.RelocationAgrees | src/hooks/useBoard.ts:160-166 | After a cross-column move to an in-range index, both client lists equal their columns sorted by the server's new positions. |
| Agreement.MoveAgrees | src/hooks/useBoard.ts:148-186 | A move that both sides apply keeps the client board mirroring the server table. This needs the task's real column as the source and an index inside the destination (excluding the task itself for a same-column move). |
| Agreement.RefetchMirrors | src/hooks/useBoard.ts:17-26 | A refetch that returns the board built from a contiguous table leaves the hook mirroring that table, with the error cleared. |
| Agreement.SyncedMoveAgrees | src/hooks/useBoard.ts:188-203 | When the server accepts a move made from the task's real column to an in-range index, the hook keeps the optimistic board, and it mirrors the server's new table. |
| Agreement.FailedMoveResyncs | src/hooks/useBoard.ts:204-208 | When the server refuses a move, the refetch replaces the optimistic board, and the hook mirrors the table it was fetched from, whatever the optimistic update did. |
| Agreement.AddAgrees | src/hooks/useBoard.ts:57-67 | When the server appends the new row after the last position of its column and the client adds the returned task, the hook keeps mirroring the table. |
| Agreement.AppendMirrors | src/hooks/useBoard.ts:57-67 | A board that appends the new id to its column's list, adds the task and leaves the other columns alone mirrors the table with the new row appended at its column's size. |
| Agreement.UpdateAgrees | src/hooks/useBoard.ts:91-97 | When the server's update keeps every task in its column and position, and the returned task keeps its column, the hook keeps mirroring the table. |
| CreateHandler.NextPosition | api/tasks.ts:24-29 | The next position is above every position in the column and one past the largest, or 0 for an empty column. |
| CreateHandler.NextPositionIsSize | api/tasks.ts:24-29 | On a contiguous column, the next position equals the column's size. |
| CreateHandler.AppendKeepsOrder | api/tasks.ts:32-35 | Inserting a new row at its column's size keeps every column contiguous. |
| CreateHandler.LinkOne | api/tasks.ts:41-58 | One tag: an existing name keeps its id and a new name gets the current SERIAL value. The sequence advances either way, and the task is linked to the name's id. |
| CreateHandler.LinkTags | api/tasks.ts:38-61 | The tag loop draws one SERIAL value per listed name. It adds exactly the new names, each with a fresh id, and keeps the existing ids. It links the task once per distinct name, and tag ids stay distinct and below the sequence. |
| CreateHandler.LinkedExactly | api/tasks.ts:38-61 | For a new task, the names linked to it after the loop are exactly the distinct input names: duplicates give one link. |
| CreateHandler.Create | api/tasks.ts:8-77 | A non-POST request gets 405 and a missing title or column gets 400, with nothing written. The answer is 500, with nothing written, exactly when the foreign key, the primary key or the priority check refuses the insert. Otherwise one row is added after the column's last position, holding the given title, the defaulted description and priority, and `now` as both timestamps. No other row changes. The response defaults the description to `''`, the priority to `'medium'` and the tags to `[]`. Contiguity and the schema's constraints are preserved. |
| CreateHandler.Insert | api/tasks.ts:31-61 | The insert adds exactly the new row. The tag loop then keeps the schema's constraints and links the task to exactly its distinct tag names. |
| CreateHandler.CreateKeepsWF | api/tasks.ts:31-61 | The insert and the tag loop keep every link pointing at an existing task and tag. |
| TaskModal.Trim | src/components/TaskModal.tsx:16-17 | The result has no whitespace at either end. |
| TaskModal.TrimIsMiddle | src/components/TaskModal.tsx:16-17 | `trim()` returns the middle of the text; everything cut from either end is whitespace. |
| TaskModal.TrimIdempotent | src/components/TaskModal.tsx:16-17 | Trimming twice is the same as trimming once. |
| TaskModal.TrimSkipsLeadingSpace | src/components/TaskModal.tsx:25 | A whitespace character in front does not change the trimmed text. |
| TaskModal.Split | src/components/TaskModal.tsx:24 | `split(',')` gives at least one piece, and no piece contains a comma. |
| TaskModal.JoinSplit | src/components/TaskModal.tsx:24 | Joining the pieces of `split(',')` with commas gives the input back. |
| TaskModal.SplitAtComma | src/components/TaskModal.tsx:24 | Splitting `a,b` gives the pieces of `a` followed by those of `b`. |
| TaskModal.Compact | src/components/TaskModal.tsx:25-26 | Every kept piece is non-empty and trimmed, and there are no more of them than inputs. |
| TaskModal.CompactAppend | src/components/TaskModal.tsx:25-26 | Trimming and filtering works piece by piece, so it keeps the pieces' order. |
| TaskModal.CompactCons | src/components/TaskModal.tsx:25-26 | Compacting keeps the first piece, trimmed, in front of the compacted rest, unless that piece trims to nothing. |
| TaskModal.ParseTags | src/components/TaskModal.tsx:23-26 | Every parsed tag is non-empty and has no leading or trailing whitespace. |
| TaskModal.ParseTagsAtComma | src/components/TaskModal.tsx:23-26 | The tags of `a,b` are those of `a` followed by those of `b`. Order is kept and repeats are not removed. |
| TaskModal.ParseTagsSkipsLeadingSpace | src/components/TaskModal.tsx:23-26 | Leading whitespace in the field does not change the parsed tags. |
| TaskModal.ParseJoinedTags | src/components/TaskModal.tsx:23-26 | Parsing `tags.join(', ')` gives back `tags` when each tag is non-empty, trimmed and comma-free. |
| TaskModal.EmptyFieldNoTags | src/components/TaskModal.tsx:19-26 | An empty tag field gives no tags. |
| TaskModal.DefaultTagsRoundTrip | src/components/TaskModal.tsx:109 | Submitting the tag field of an existing task untouched gives back the task's tags, when they are non-empty, trimmed and comma-free. |
| TaskModal.HandleSubmit | src/components/TaskModal.tsx:13-36 | The submission is ignored exactly when the title is blank after trimming. A saved submission carries the trimmed title and description and the tags parsed from the field, and the form is closed after saving. |
| TaskModal.SubmittedText | src/components/TaskModal.tsx:16-21 | A saved submission's title is the submitted title trimmed, and it is not empty. Its description is the submitted description trimmed. Both have no whitespace at either end. |
| TaskModal.SubmittedPriority | src/components/TaskModal.tsx:18 | A saved submission carries the submitted priority, or `'medium'` when it is missing or empty. |
| TaskModal.SubmittedTags | src/components/TaskModal.tsx:19-26 | A saved submission's tags are non-empty and trimmed. There are none when the field is missing or empty. |
| DragIntent.DragOver | src/components/Board.tsx:43-65 | Nothing over the pointer, or an unknown dragged task, gives no move. A column other than the task's own gives a move to its tail. The task's own column gives no move. A task in another column gives a move to that task's index in its column. That last case throws when its column is undefined. |
| DragIntent.DragEnd | src/components/Board.tsx:67-87 | Nothing under the pointer, the dragged task itself, or an unknown task gives no move. A task in the same column gives a same-column move to that task's index. That move throws exactly when the column is undefined. |
| DragIntent.DragOverInRange | src/components/Board.tsx:43-65 | On a consistent board, a drag-over never throws. Any move it asks for leaves the task's own column for another one, at an index from 0 to the target's length. |
| DragIntent.DragEndInRange | src/components/Board.tsx:67-87 | On a consistent board, a drag-end never throws. Any move it asks for stays in the task's column, at an index inside the column. |
| DragIntent.DragMoveAgrees | src/components/Board.tsx:43-87 | A move that `handleDragOver` or `handleDragEnd` asks for on a consistent board, with non-empty ids, is accepted by the server. It keeps a mirroring board mirroring the table once both sides apply it. |
| DragIntent.VisibleTasks | src/components/Board.tsx:140 | A column shows at most as many tasks as it lists ids. Every id that has an entry has that entry shown, and ids without an entry are dropped. When every id has an entry, it shows exactly those entries, in list order. |
| DragIntent.VisibleTasksAppend | src/components/Board.tsx:140 | The lookup drops ids one at a time: the tasks shown for two lists joined are those of the first list followed by those of the second. |
| DragIntent.VisibleTasksListed | src/components/Board.tsx:140 | Every task a column shows is the entry of one of its ids. |

## Left out

- HTTP and SQL transport: each handler is a pure function from a table state to a status and a new state.
- The 500 answer of the move and board handlers when a query throws: a query never fails in the model. For creation, the constraint failures that make the insert throw are modelled.
- Concurrency and transactions: each handler is one atomic step; interleaved requests and races between optimistic updates are not modelled.
- Partial writes: the move handler's separate UPDATEs and the creation tag loop are applied all at once; a failure halfway through is not modelled.
- Timestamps and id generation (`new Date().toISOString()`, `generateId` in api/tasks.ts:4-6): they are inputs `now` and `x`.
- Loading flags, `console.error`, the drag overlay, confirmation dialogs and all rendering.
- `localStorage` parsing in `fetchBoard`: the saved board is an optional input.
- The render-time lookup `boardState.columns[columnId]` for an id in `columnOrder` without a column (src/components/Board.tsx:139): only the `filter(Boolean)` step is modelled.
- `api/tasks/[id].ts` (server update and delete) is not part of this model. Its DELETE (api/tasks/[id].ts:107-121) removes the row without shifting the rows after it. The column then has a gap in its positions that no later operation repairs, so after a delete that is not at the tail the table is no longer contiguous and no board mirrors it. Its PUT enters only through `Agreement.UpdateAgrees`, as a table that keeps every task in place.
- `deleteTask` reads the task from the `boardState` the callback closed over: this is the `seen` parameter of `UseBoard.DeleteTask`; the staleness of that closure over time is not modelled.
- `api/init.ts` schema creation and seed data: only the priority CHECK constraint and the foreign key of `tasks.column_id` are used.
- VARCHAR length limits and non-string values in JSON bodies: strings are unbounded and every field has its declared type.
- `TagBadge.tsx` colour hashing and the other presentation components.
- `UseBoard.MoveTask` and `UseBoard.MoveAndSync` return `None` when the state updater throws while React renders. The request to the server (src/hooks/useBoard.ts:189-199) is still sent in that case; `None` does not mean that nothing happened.
- `tasks.column_id` may be NULL in the schema (api/init.ts:26); a task row always names a column here.
- Client task records created by `moveTask` for an id that has no entry in `tasks` carry only `columnId` and `updatedAt`; the model writes the other fields as empty values.
- TaskModal.ParseTags: does not state that parsed tags are comma-free, although they are; the proof was too costly for the solver and the property is not used elsewhere.
- Strings are sequences of Unicode characters rather than UTF-16 code units; `trim` uses the ECMAScript whitespace set, which lies entirely in the Basic Multilingual Plane, so the two agree on it.

=== FILE: agreement.dfy ===
/** How the client's board relates to the server's `tasks` table. A fetched board lists
    every column in position order; a move applied to both sides with an in-range index,
    from the task's real column, keeps the two in step. */
module Agreement {
  import opened Common
  import opened Store
  import opened Projection
  import opened JsArray
  import opened MoveHandler
  import opened BoardBuilder
  import opened UseBoard

  /** The client board `b` mirrors the table `t`: every column's `taskIds` lists that
      column in position order, and the client knows exactly the server's tasks, each
      under its server column. */
  ghost predicate Mirrors(t: Table, b: BoardState) {
    && (forall c | c in b.columns :: Arranges(t, c, b.columns[c].taskIds))
    && b.tasks.Keys == t.Keys
    && forall id | id in b.tasks :: b.tasks[id].columnId == t[id].column
  }

  /** The task rows the board query returns for table `t`: each task once, as stored,
      in ascending position. */
  ghost predicate RowsFor(t: Table, rows: seq<TaskRecord>) {
    && NoDup(RowIds(rows))
    && (forall k | 0 <= k < |rows| :: rows[k].id in t && rows[k].row == t[rows[k].id])
    && (forall id | id in t :: id in RowIds(rows))
    && ByPosition(rows)
  }

  /** A strictly increasing sequence of `|p|` values drawn from `[0, |p|)` counts up from 0. */
  lemma {:induction false} IncreasingFill(p: seq<int>)
    requires forall i, j | 0 <= i < j < |p| :: p[i] < p[j]
    requires forall i | 0 <= i < |p| :: 0 <= p[i] < |p|
    ensures forall i | 0 <= i < |p| :: p[i] == i
  {
    forall i | 0 <= i < |p|
      ensures p[i] == i
    {
      AtLeastIndex(p, i);
      AtMostIndex(p, i);
    }
  }

  /** In a strictly increasing sequence of naturals, the value at index `i` is at least `i`. */
  lemma {:induction false} AtLeastIndex(p: seq<int>, i: int)
    requires forall i, j | 0 <= i < j < |p| :: p[i] < p[j]
    requires forall i | 0 <= i < |p| :: 0 <= p[i]
    requires 0 <= i < |p|
    ensures p[i] >= i
  {
    if i > 0 {
      AtLeastIndex(p, i - 1);
    }
  }

  /** In a strictly increasing sequence below `|p|`, the value at index `i` is at most `i`. */
  lemma {:induction false} AtMostIndex(p: seq<int>, i: int)
    requires forall i, j | 0 <= i < j < |p| :: p[i] < p[j]
    requires forall i | 0 <= i < |p| :: p[i] < |p|
    requires 0 <= i < |p|
    ensures p[i] <= i
    decreases |p| - i
  {
    if i < |p| - 1 {
      AtMostIndex(p, i + 1);
    }
  }

  /** A column's list from the query rows holds exactly the column's tasks, each once. */
  lemma RowsListColumn(t: Table, rows: seq<TaskRecord>, c: Id)
    requires RowsFor(t, rows)
    ensures NoDup(IdsIn(rows, c))
    ensures forall i | 0 <= i < |IdsIn(rows, c)| :: IdsIn(rows, c)[i] in t && t[IdsIn(rows, c)[i]].column == c
    ensures forall id | id in t && t[id].column == c :: id in IdsIn(rows, c)
  {
    var f := RowsIn(rows, c);
    var ids := IdsIn(rows, c);
    IdsInNoDup(rows, c);
    forall i | 0 <= i < |ids|
      ensures ids[i] in t && t[ids[i]].column == c
    {
      assert f[i] in rows;
    }
    forall id | id in t && t[id].column == c
      ensures id in ids
    {
      var k :| 0 <= k < |rows| && RowIds(rows)[k] == id;
      assert rows[k] in f;
      var j :| 0 <= j < |f| && f[j] == rows[k];
      assert ids[j] == id;
    }
  }

  /** Along a column's list from the query rows, stored positions strictly increase when
      the column uses no position twice. */
  lemma RowsListAscends(t: Table, rows: seq<TaskRecord>, c: Id, i: int, j: int)
    requires RowsFor(t, rows) && Contiguous(t, c)
    requires 0 <= i < j < |IdsIn(rows, c)|
    ensures IdsIn(rows, c)[i] in t && IdsIn(rows, c)[j] in t
    ensures t[IdsIn(rows, c)[i]].position < t[IdsIn(rows, c)[j]].position
  {
    var f := RowsIn(rows, c);
    var ids := IdsIn(rows, c);
    RowsListColumn(t, rows, c);
    RowsInByPosition(rows, c);
    assert f[i] in rows && f[j] in rows;
    assert f[i].row.position <= f[j].row.position;
    assert ids[i] != ids[j];
    assert ids[i] in Members(t, c) && ids[j] in Members(t, c);
  }

  /** Along a contiguous column's list from the query rows, every stored position is an
      index of the list. */
  lemma RowsListBounded(t: Table, rows: seq<TaskRecord>, c: Id)
    requires RowsFor(t, rows) && Contiguous(t, c)
    ensures forall i | 0 <= i < |IdsIn(rows, c)| ::
      IdsIn(rows, c)[i] in t && 0 <= t[IdsIn(rows, c)[i]].position < |IdsIn(rows, c)|
  {
    var ids := IdsIn(rows, c);
    RowsListColumn(t, rows, c);
    assert Elements(ids) == Members(t, c);
    NoDupCard(ids);
    forall i | 0 <= i < |ids|
      ensures 0 <= t[ids[i]].position < |ids|
    {
      assert t[ids[i]].position in Positions(t, c);
    }
  }

  /** The rows of a contiguous column, taken in query order, list it in position order. */
  lemma RowsArrange(t: Table, rows: seq<TaskRecord>, c: Id)
    requires RowsFor(t, rows) && Contiguous(t, c)
    ensures Arranges(t, c, IdsIn(rows, c))
  {
    var ids := IdsIn(rows, c);
    RowsListColumn(t, rows, c);
    RowsListBounded(t, rows, c);
    var p := seq(|ids|, i requires 0 <= i < |ids| => t[ids[i]].position);
    forall i, j | 0 <= i < j < |p|
      ensures p[i] < p[j]
    {
      RowsListAscends(t, rows, c, i, j);
    }
    IncreasingFill(p);
    forall i | 0 <= i < |ids|
      ensures t[ids[i]].position == i
    {
      assert p[i] == i;
    }
  }

  /** A board built from the query rows of a table whose columns are contiguous mirrors
      the table. `b` is any board meeting `Build`'s postcondition. */
  lemma FetchMirrors(t: Table, rows: seq<TaskRecord>, b: BoardState)
    requires RowsFor(t, rows) && AllContiguous(t)
    requires forall c | c in b.columns :: b.columns[c].taskIds == IdsIn(rows, c)
    requires Records(b.tasks, rows)
    ensures Mirrors(t, b)
  {
    forall c | c in b.columns
      ensures Arranges(t, c, b.columns[c].taskIds)
    {
      RowsArrange(t, rows, c);
    }
    forall id | id in t
      ensures id in b.tasks
    {
      var k :| 0 <= k < |rows| && RowIds(rows)[k] == id;
    }
  }

  /** `b` is `prev` after the client took `x` out of its list in column `s` at index `i`
      and put it at index `d` of column `e`, leaving every other column and task as it was. */
  ghost predicate Spliced(prev: BoardState, b: BoardState, x: Id, s: Id, e: Id, i: int, d: int)
    requires s in prev.columns && e in prev.columns && 0 <= i < |prev.columns[s].taskIds|
  {
    && b.columns.Keys == prev.columns.Keys
    && (forall c | c in prev.columns && c != s && c != e :: b.columns[c] == prev.columns[c])
    && (s == e ==> b.columns[s].taskIds == InsertAt(RemoveAt(prev.columns[s].taskIds, i), d, x))
    && (s != e ==> b.columns[s].taskIds == RemoveAt(prev.columns[s].taskIds, i))
    && (s != e ==> b.columns[e].taskIds == InsertAt(prev.columns[e].taskIds, d, x))
    && b.tasks.Keys == prev.tasks.Keys
    && (forall id | id in prev.tasks && id != x :: b.tasks[id] == prev.tasks[id])
    && x in b.tasks && b.tasks[x].columnId == e
  }

  /** The client's move, for a task it lists and knows, splices at the index `indexOf` finds. */
  lemma MoveTaskSplicesAtIndex(prev: BoardState, x: Id, s: Id, e: Id, d: int, now: string)
    requires s in prev.columns && e in prev.columns && x in prev.columns[s].taskIds && x in prev.tasks
    ensures 0 <= IndexOf(prev.columns[s].taskIds, x) < |prev.columns[s].taskIds|
    ensures MoveTask(prev, x, s, e, d, now).Some?
    ensures Spliced(prev, MoveTask(prev, x, s, e, d, now).value, x, s, e, IndexOf(prev.columns[s].taskIds, x), d)
  {
  }

  /** The client's move, for a task it lists, is such a splice at the task's index. */
  lemma MoveTaskSplices(t: Table, prev: BoardState, x: Id, s: Id, e: Id, d: int, now: string)
    requires Mirrors(t, prev) && s in prev.columns && e in prev.columns
    requires x in t && t[x].column == s
    ensures x in prev.columns[s].taskIds && 0 <= t[x].position < |prev.columns[s].taskIds|
    ensures MoveTask(prev, x, s, e, d, now).Some?
    ensures Spliced(prev, MoveTask(prev, x, s, e, d, now).value, x, s, e, t[x].position, d)
  {
    var src := prev.columns[s].taskIds;
    assert Arranges(t, s, src);
    assert x in src;
    var k :| 0 <= k < |src| && src[k] == x;
    assert t[x].position == k;
    ArrangesNoDup(t, s, src);
    IndexOfNoDup(src, k);
    assert x in prev.tasks;
    MoveTaskSplicesAtIndex(prev, x, s, e, d, now);
  }

  /** Columns the move does not name keep mirroring the table. */
  lemma OtherColumnsAgree(t: Table, r: Table, prev: BoardState, b: BoardState, s: Id, e: Id)
    requires Mirrors(t, prev) && b.columns.Keys == prev.columns.Keys
    requires forall c | c in prev.columns && c != s && c != e :: b.columns[c] == prev.columns[c]
    requires forall c | c != s && c != e :: ColumnUnchanged(t, r, c)
    ensures forall c | c in b.columns && c != s && c != e :: Arranges(r, c, b.columns[c].taskIds)
  {
    forall c | c in b.columns && c != s && c != e
      ensures Arranges(r, c, b.columns[c].taskIds)
    {
      UnchangedColumnKeepsOrder(t, r, c);
    }
  }

  /** After a move the client's tasks still match the server's, each under its column. */
  lemma TasksAgree(t: Table, r: Table, prev: BoardState, b: BoardState, x: Id, e: Id)
    requires Mirrors(t, prev) && t.Keys == r.Keys && x in r && r[x].column == e
    requires forall id | id in t && id != x :: r[id].column == t[id].column
    requires b.tasks.Keys == prev.tasks.Keys && x in b.tasks && b.tasks[x].columnId == e
    requires forall id | id in prev.tasks && id != x :: b.tasks[id] == prev.tasks[id]
    ensures b.tasks.Keys == r.Keys
    ensures forall id | id in b.tasks :: b.tasks[id].columnId == r[id].column
  {
  }

  /** A board mirrors a table once its two touched columns and all the others are arranged
      and its tasks sit in their table columns. */
  lemma ColumnsMirror(r: Table, b: BoardState, s: Id, e: Id)
    requires s in b.columns && e in b.columns
    requires Arranges(r, s, b.columns[s].taskIds) && Arranges(r, e, b.columns[e].taskIds)
    requires forall c | c in b.columns && c != s && c != e :: Arranges(r, c, b.columns[c].taskIds)
    requires b.tasks.Keys == r.Keys
    requires forall id | id in b.tasks :: b.tasks[id].columnId == r[id].column
    ensures Mirrors(r, b)
  {
  }

  /** The client's and the server's same-column moves agree. */
  lemma SlideAgrees(t: Table, r: Table, prev: BoardState, b: BoardState, x: Id, c: Id, d: int)
    requires Mirrors(t, prev) && c in prev.columns
    requires x in t && t[x].column == c
    requires 0 <= d < |prev.columns[c].taskIds|
    requires 0 <= t[x].position < |prev.columns[c].taskIds|
    requires Slid(t, r, x, c, d)
    requires Spliced(prev, b, x, c, c, t[x].position, d)
    ensures Mirrors(r, b)
  {
    var ids := prev.columns[c].taskIds;
    assert Arranges(t, c, ids);
    ArrangesMembers(t, c, ids);
    assert x in Members(t, c);
    SlideFollowsSplice(t, r, c, ids, x, d);
    assert Arranges(r, c, b.columns[c].taskIds);
    forall c' | c' != c
      ensures ColumnUnchanged(t, r, c')
    {
      SlideSparesOthers(t, r, x, c, d, c');
    }
    OtherColumnsAgree(t, r, prev, b, c, c);
    TasksAgree(t, r, prev, b, x, c);
    ColumnsMirror(r, b, c, c);
  }

  /** The client's and the server's cross-column moves agree. */
  lemma RelocationAgrees(t: Table, r: Table, prev: BoardState, b: BoardState, x: Id, s: Id, e: Id, d: int)
    requires Mirrors(t, prev) && s in prev.columns && e in prev.columns && s != e
    requires x in t && t[x].column == s
    requires 0 <= d <= |prev.columns[e].taskIds|
    requires 0 <= t[x].position < |prev.columns[s].taskIds|
    requires Relocated(t, r, x, s, e, d)
    requires Spliced(prev, b, x, s, e, t[x].position, d)
    ensures Mirrors(r, b)
  {
    var src, dst := prev.columns[s].taskIds, prev.columns[e].taskIds;
    assert Arranges(t, s, src) && Arranges(t, e, dst);
    ArrangesMembers(t, s, src);
    assert x in Members(t, s);
    RelocationClosesSource(t, r, s, e, src, x, d);
    RelocationOpensDestination(t, r, s, e, dst, x, d);
    forall c | c != s && c != e
      ensures ColumnUnchanged(t, r, c)
    {
      MoveHandler.RelocationSparesOthers(t, r, x, s, e, d, c);
    }
    assert Arranges(r, s, b.columns[s].taskIds) && Arranges(r, e, b.columns[e].taskIds);
    OtherColumnsAgree(t, r, prev, b, s, e);
    TasksAgree(t, r, prev, b, x, e);
    ColumnsMirror(r, b, s, e);
  }

  /** A move the client and the server both apply, from the task's real column and to an
      index inside the destination (excluding the moved task when it stays in its column),
      keeps the client board mirroring the table. */
  lemma MoveAgrees(t: Table, prev: BoardState, x: Id, s: Id, e: Id, d: int, now: string)
    requires Mirrors(t, prev) && s in prev.columns && e in prev.columns
    requires x in t && t[x].column == s && x != "" && s != "" && e != ""
    requires s == e ==> 0 <= d < |prev.columns[s].taskIds|
    requires s != e ==> 0 <= d <= |prev.columns[e].taskIds|
    ensures Handle(t, Request(x, s, e, d), now).status == Ok
    ensures MoveTask(prev, x, s, e, d, now).Some?
    ensures Mirrors(Handle(t, Request(x, s, e, d), now).tasks, MoveTask(prev, x, s, e, d, now).value)
  {
    MoveTaskSplices(t, prev, x, s, e, d, now);
    var b := MoveTask(prev, x, s, e, d, now).value;
    var r := Handle(t, Request(x, s, e, d), now).tasks;
    if s == e {
      ReorderSlides(t, x, s, d, now);
      SlideAgrees(t, r, prev, b, x, s, d);
    } else {
      RelocateRelocates(t, x, s, e, d, now);
      RelocationAgrees(t, r, prev, b, x, s, e, d);
    }
  }

  /** `b` is the board `Build` returns for the query rows `rows`. */
  ghost predicate BuiltFrom(b: BoardState, rows: seq<TaskRecord>) {
    && (forall c | c in b.columns :: b.columns[c].taskIds == IdsIn(rows, c))
    && Records(b.tasks, rows)
  }

  /** A refetch that returns the board built from a contiguous table leaves the hook
      mirroring that table, with the error cleared. */
  lemma RefetchMirrors(t: Table, rows: seq<TaskRecord>, h: Hook, b: BoardState, saved: Option<BoardState>)
    requires RowsFor(t, rows) && AllContiguous(t) && BuiltFrom(b, rows)
    ensures FetchBoard(h, Some(b), saved).error == None
    ensures Mirrors(t, FetchBoard(h, Some(b), saved).board)
  {
    FetchMirrors(t, rows, b);
  }

  /** A move the server accepted leaves the hook's optimistic board mirroring the server's
      table, when it was applied from the task's real column to an in-range index. */
  lemma SyncedMoveAgrees(
    t: Table, h: Hook, x: Id, s: Id, e: Id, d: int, now: string,
    fetched: Option<BoardState>, saved: Option<BoardState>)
    requires Mirrors(t, h.board) && s in h.board.columns && e in h.board.columns
    requires x in t && t[x].column == s && x != "" && s != "" && e != ""
    requires s == e ==> 0 <= d < |h.board.columns[s].taskIds|
    requires s != e ==> 0 <= d <= |h.board.columns[e].taskIds|
    ensures MoveAndSync(h, x, s, e, d, now, true, fetched, saved).Some?
    ensures Mirrors(Handle(t, Request(x, s, e, d), now).tasks, MoveAndSync(h, x, s, e, d, now, true, fetched, saved).value.board)
  {
    MoveAgrees(t, h.board, x, s, e, d, now);
  }

  /** A move the server refused is reconciled by the refetch: whatever the optimistic
      update did, the hook ends up mirroring the table the refetch was built from. */
  lemma FailedMoveResyncs(
    t: Table, rows: seq<TaskRecord>, h: Hook, x: Id, s: Id, e: Id, d: int, now: string,
    b: BoardState, saved: Option<BoardState>)
    requires s in h.board.columns && (s == e || e in h.board.columns)
    requires RowsFor(t, rows) && AllContiguous(t) && BuiltFrom(b, rows)
    ensures MoveAndSync(h, x, s, e, d, now, false, Some(b), saved).Some?
    ensures MoveAndSync(h, x, s, e, d, now, false, Some(b), saved).value.error == None
    ensures Mirrors(t, MoveAndSync(h, x, s, e, d, now, false, Some(b), saved).value.board)
  {
    FetchMirrors(t, rows, b);
  }

  /** A row appended after the last position of its column extends that column's list by
      its id. */
  lemma ArrangesAppend(t: Table, c: Id, ids: seq<Id>, x: Id, row: TaskRow)
    requires Arranges(t, c, ids) && x !in t && row.column == c && row.position == |Members(t, c)|
    ensures Arranges(t[x := row], c, ids + [x])
  {
    ArrangesMembers(t, c, ids);
    var t', grown := t[x := row], ids + [x];
    forall i | 0 <= i < |grown|
      ensures grown[i] in t' && t'[grown[i]].column == c && t'[grown[i]].position == i
    {
      if i < |ids| {
        assert grown[i] == ids[i] && ids[i] in t;
      }
    }
    forall id | id in t' && t'[id].column == c
      ensures id in grown
    {
      if id != x {
        assert id in ids;
      }
    }
  }

  /** A row inserted into another column leaves a column's list as it was. */
  lemma ArrangesInsertElsewhere(t: Table, c: Id, ids: seq<Id>, x: Id, row: TaskRow)
    requires Arranges(t, c, ids) && x !in t && row.column != c
    ensures Arranges(t[x := row], c, ids)
  {
    forall i | 0 <= i < |ids|
      ensures ids[i] != x
    {
      assert ids[i] in t;
    }
  }

  /** Creation on both sides: when the server appends row `row` for task `x` after the last
      position of its column (what `CreateHandler.Create` does on a contiguous table) and
      the client adds the task it got back, the hook keeps mirroring the table. */
  lemma AddAgrees(t: Table, h: Hook, x: Id, row: TaskRow, task: Task)
    requires Mirrors(t, h.board) && x !in t
    requires row.column in h.board.columns && row.position == |Members(t, row.column)|
    requires task.id == x && task.columnId == row.column
    ensures AddTask(h, row.column, Some(task)).Some?
    ensures Mirrors(t[x := row], AddTask(h, row.column, Some(task)).value.board)
  {
    var b := AddTask(h, row.column, Some(task)).value.board;
    AppendMirrors(t, h.board, b, x, row, task);
  }

  /** A board that appends `x` to its column's list, adds `task` and keeps every other
      column mirrors the table with `row` added. */
  lemma AppendMirrors(t: Table, prev: BoardState, b: BoardState, x: Id, row: TaskRow, task: Task)
    requires Mirrors(t, prev) && x !in t
    requires row.column in prev.columns && row.position == |Members(t, row.column)|
    requires task.id == x && task.columnId == row.column
    requires b.tasks == prev.tasks[x := task] && b.columns.Keys == prev.columns.Keys
    requires b.columns[row.column].taskIds == prev.columns[row.column].taskIds + [x]
    requires forall c | c in prev.columns && c != row.column :: b.columns[c] == prev.columns[c]
    ensures Mirrors(t[x := row], b)
  {
    var t' := t[x := row];
    forall c | c in b.columns
      ensures Arranges(t', c, b.columns[c].taskIds)
    {
      var ids := prev.columns[c].taskIds;
      assert Arranges(t, c, ids);
      if c == row.column {
        ArrangesAppend(t, c, ids, x, row);
      } else {
        ArrangesInsertElsewhere(t, c, ids, x, row);
      }
    }
    assert b.tasks.Keys == t'.Keys;
  }

  /** `r` keeps every task of `t` in its column at its position. The server's update,
      `PUT /api/tasks/[id]`, rewrites only title, description, priority, tags and
      `updated_at`, so the table after it stands in this relation to the one before. */
  ghost predicate SamePlaces(t: Table, r: Table) {
    && r.Keys == t.Keys
    && forall id | id in t :: r[id].column == t[id].column && r[id].position == t[id].position
  }

  /** Tables that keep every task in place list every column alike. */
  lemma SamePlacesArrange(t: Table, r: Table, c: Id, ids: seq<Id>)
    requires SamePlaces(t, r) && Arranges(t, c, ids)
    ensures Arranges(r, c, ids)
  {
  }

  /** An update on both sides: when the server keeps every task in place and its answer
      keeps the task's column, the hook keeps mirroring the table. */
  lemma UpdateAgrees(t: Table, r: Table, h: Hook, x: Id, task: Task)
    requires Mirrors(t, h.board) && SamePlaces(t, r)
    requires x in t && task.columnId == t[x].column
    ensures Mirrors(r, UpdateTask(h, x, Some(task)).board)
  {
    var b := UpdateTask(h, x, Some(task)).board;
    forall c | c in b.columns
      ensures Arranges(r, c, b.columns[c].taskIds)
    {
      SamePlacesArrange(t, r, c, h.board.columns[c].taskIds);
    }
  }
}

=== FILE: board_builder.dfy ===
/** `GET /api/board` (api/board.ts): turns the column rows (ordered by column position)
    and the task rows (ordered by task position) into the client's board state. */
module BoardBuilder {
  import opened Common
  import opened Store
  import opened Projection

  /** A row of `SELECT id, title, position FROM columns ORDER BY position`. */
  datatype ColumnRecord = ColumnRecord(id: Id, title: string, position: int)

  /** A row of the task query: the task's columns plus its aggregated tag names. */
  datatype TaskRecord = TaskRecord(id: Id, row: TaskRow, tags: seq<string>)

  /** The client task built from one task row; a NULL or empty description becomes `''`. */
  function ToTask(rec: TaskRecord): (r: Task)
    ensures r.id == rec.id && r.columnId == rec.row.column && r.tags == rec.tags
    ensures rec.row.description.None? ==> r.description == ""
    ensures rec.row.description.Some? ==> r.description == rec.row.description.value
  {
    Task(rec.id, rec.row.title, rec.row.description.GetOr(""), rec.row.priority,
         rec.row.column, rec.tags, rec.row.createdAt, rec.row.updatedAt)
  }

  /** The task rows of column `c`, in row order. */
  function RowsIn(rows: seq<TaskRecord>, c: Id): (r: seq<TaskRecord>)
    ensures |r| <= |rows|
    ensures forall k | 0 <= k < |r| :: r[k].row.column == c && r[k] in rows
    ensures forall k | 0 <= k < |rows| && rows[k].row.column == c :: rows[k] in r
  {
    if |rows| == 0 then []
    else
      var front := RowsIn(rows[..|rows| - 1], c);
      if rows[|rows| - 1].row.column == c then front + [rows[|rows| - 1]] else front
  }

  /** The ids of the task rows of column `c`, in row order. */
  function IdsIn(rows: seq<TaskRecord>, c: Id): (r: seq<Id>)
    ensures |r| == |RowsIn(rows, c)|
    ensures forall k | 0 <= k < |r| :: r[k] == RowsIn(rows, c)[k].id
  {
    var f := RowsIn(rows, c);
    seq(|f|, k requires 0 <= k < |f| => f[k].id)
  }

  /** Listing one more row extends the list of that row's column only. */
  lemma IdsInSnoc(rows: seq<TaskRecord>, c: Id)
    requires |rows| > 0
    ensures IdsIn(rows, c) ==
      IdsIn(rows[..|rows| - 1], c) + (if rows[|rows| - 1].row.column == c then [rows[|rows| - 1].id] else [])
  {
    var front := RowsIn(rows[..|rows| - 1], c);
    assert RowsIn(rows, c) == if rows[|rows| - 1].row.column == c then front + [rows[|rows| - 1]] else front;
  }

  /** The handler's first loop: every column gets an empty list and a place in
      `columnOrder`, in row order. */
  method InitColumns(cols: seq<ColumnRecord>) returns (columns: map<Id, Column>, order: seq<Id>)
    ensures |order| == |cols| && forall i | 0 <= i < |cols| :: order[i] == cols[i].id
    ensures forall i | 0 <= i < |cols| :: cols[i].id in columns
    ensures forall c | c in columns :: exists i | 0 <= i < |cols| :: cols[i].id == c && columns[c].title == cols[i].title
    ensures forall c | c in columns :: columns[c].id == c && columns[c].taskIds == []
  {
    columns := map[];
    order := [];
    var i := 0;
    while i < |cols|
      invariant 0 <= i <= |cols|
      invariant |order| == i && forall j | 0 <= j < i :: order[j] == cols[j].id
      invariant forall j | 0 <= j < i :: cols[j].id in columns
      invariant forall c | c in columns :: exists j | 0 <= j < i :: cols[j].id == c && columns[c].title == cols[j].title
      invariant forall c | c in columns :: columns[c].id == c && columns[c].taskIds == []
    {
      columns := columns[cols[i].id := Column(cols[i].id, cols[i].title, [])];
      order := order + [cols[i].id];
      i := i + 1;
    }
  }

  /** Every column of `filled` is the same column of `columns` with the ids of its rows
      appended, in row order. */
  predicate Lists(filled: map<Id, Column>, columns: map<Id, Column>, rows: seq<TaskRecord>) {
    && filled.Keys == columns.Keys
    && forall c | c in columns :: filled[c] == columns[c].(taskIds := columns[c].taskIds + IdsIn(rows, c))
  }

  /** `tasks` holds an entry for every row, and each entry was built from a row with its id. */
  predicate Records(tasks: map<Id, Task>, rows: seq<TaskRecord>) {
    && (forall k | 0 <= k < |rows| :: rows[k].id in tasks)
    && (forall id | id in tasks :: exists k | 0 <= k < |rows| :: rows[k].id == id && tasks[id] == ToTask(rows[k]))
  }

  /** The column map after pushing the ids of `rows`, one by one, onto their columns. */
  function Filled(columns: map<Id, Column>, rows: seq<TaskRecord>): map<Id, Column> {
    if |rows| == 0 then columns
    else
      var before := Filled(columns, rows[..|rows| - 1]);
      var rec := rows[|rows| - 1];
      if rec.row.column in before
      then before[rec.row.column := before[rec.row.column].(taskIds := before[rec.row.column].taskIds + [rec.id])]
      else before
  }

  /** The task map after recording `rows`, one by one, under their ids. */
  function Recorded(rows: seq<TaskRecord>): map<Id, Task> {
    if |rows| == 0 then map[]
    else Recorded(rows[..|rows| - 1])[rows[|rows| - 1].id := ToTask(rows[|rows| - 1])]
  }

  /** Pushing the rows' ids appends, to each column, the ids of its own rows. */
  lemma {:induction false} FilledLists(columns: map<Id, Column>, rows: seq<TaskRecord>)
    ensures Lists(Filled(columns, rows), columns, rows)
  {
    if |rows| == 0 {
      forall c | c in columns
        ensures columns[c] == columns[c].(taskIds := columns[c].taskIds + IdsIn(rows, c))
      {
        assert columns[c].taskIds + [] == columns[c].taskIds;
      }
    } else {
      var k := |rows| - 1;
      FilledLists(columns, rows[..k]);
      var before := Filled(columns, rows[..k]);
      var after := Filled(columns, rows);
      forall c | c in columns
        ensures after[c] == columns[c].(taskIds := columns[c].taskIds + IdsIn(rows, c))
      {
        IdsInSnoc(rows, c);
        if c == rows[k].row.column {
          assert columns[c].taskIds + IdsIn(rows[..k], c) + [rows[k].id] == columns[c].taskIds + IdsIn(rows, c);
        }
      }
    }
  }

  /** Recording the rows gives an entry for every row, each built from a row with its id. */
  lemma {:induction false} RecordedRecords(rows: seq<TaskRecord>)
    ensures Records(Recorded(rows), rows)
  {
    RecordedCovers(rows);
    RecordedFromRows(rows);
  }

  /** Every row's id has an entry once the rows are recorded. */
  lemma {:induction false} RecordedCovers(rows: seq<TaskRecord>)
    ensures forall j | 0 <= j < |rows| :: rows[j].id in Recorded(rows)
  {
    if |rows| > 0 {
      var k := |rows| - 1;
      var front := rows[..k];
      RecordedCovers(front);
      forall j | 0 <= j < k
        ensures rows[j].id in Recorded(rows)
      {
        assert rows[j] == front[j];
      }
    }
  }

  /** Every recorded entry is built from a row with its id. */
  lemma {:induction false} RecordedFromRows(rows: seq<TaskRecord>)
    ensures forall id | id in Recorded(rows) ::
      exists j | 0 <= j < |rows| :: rows[j].id == id && Recorded(rows)[id] == ToTask(rows[j])
  {
    if |rows| > 0 {
      var k := |rows| - 1;
      var front := rows[..k];
      RecordedFromRows(front);
      var before := Recorded(front);
      var after := Recorded(rows);
      forall id | id in after
        ensures exists j | 0 <= j < |rows| :: rows[j].id == id && after[id] == ToTask(rows[j])
      {
        if id == rows[k].id {
          assert rows[k].id == id && after[id] == ToTask(rows[k]);
        } else {
          var j :| 0 <= j < k && front[j].id == id && before[id] == ToTask(front[j]);
          assert front[j] == rows[j];
          assert after[id] == before[id];
        }
      }
    }
  }

  /** The handler's second loop: every task row is recorded under its id (a later row with
      the same id overwrites an earlier one), and its id is pushed onto its column's list
      when that column exists. Each column ends with the ids of its own rows appended, and
      every entry of `tasks` is built from a row with its id. Row by row, the loop computes
      `Filled` and `Recorded`. */
  method AddRows(columns: map<Id, Column>, rows: seq<TaskRecord>) returns (tasks: map<Id, Task>, filled: map<Id, Column>)
    ensures Lists(filled, columns, rows)
    ensures Records(tasks, rows)
    ensures filled == Filled(columns, rows) && tasks == Recorded(rows)
  {
    tasks := map[];
    filled := columns;
    var k := 0;
    while k < |rows|
      invariant 0 <= k <= |rows|
      invariant filled == Filled(columns, rows[..k])
      invariant tasks == Recorded(rows[..k])
    {
      assert rows[..k + 1][..k] == rows[..k];
      var rec := rows[k];
      tasks := tasks[rec.id := ToTask(rec)];
      if rec.row.column in filled {
        var col := filled[rec.row.column];
        filled := filled[rec.row.column := col.(taskIds := col.taskIds + [rec.id])];
      }
      k := k + 1;
    }
    assert rows[..|rows|] == rows;
    PushedRowsListAndRecord(columns, rows, tasks, filled);
  }

  /** What the loop computes is what the handler promises of it. */
  lemma PushedRowsListAndRecord(columns: map<Id, Column>, rows: seq<TaskRecord>, tasks: map<Id, Task>, filled: map<Id, Column>)
    requires filled == Filled(columns, rows) && tasks == Recorded(rows)
    ensures Lists(filled, columns, rows) && Records(tasks, rows)
  {
    FilledLists(columns, rows);
    RecordedRecords(rows);
  }

  /** The handler: `columnOrder` lists the column rows' ids in row order, each column's
      `taskIds` lists the ids of its task rows in row order, and `tasks` holds every row. */
  method Build(cols: seq<ColumnRecord>, rows: seq<TaskRecord>) returns (b: BoardState)
    ensures |b.columnOrder| == |cols| && forall i | 0 <= i < |cols| :: b.columnOrder[i] == cols[i].id
    ensures forall i | 0 <= i < |cols| :: cols[i].id in b.columns
    ensures forall c | c in b.columns :: exists i | 0 <= i < |cols| :: cols[i].id == c && b.columns[c].title == cols[i].title
    ensures forall c | c in b.columns :: b.columns[c].id == c && b.columns[c].taskIds == IdsIn(rows, c)
    ensures Records(b.tasks, rows)
  {
    var columns, order := InitColumns(cols);
    var tasks, filled := AddRows(columns, rows);
    b := BoardState(tasks, filled, order);
  }

  /** The column rows the query returns for the `columns` table: each column once, as
      stored, in ascending column position (`ORDER BY position`). */
  ghost predicate ColumnsFor(columns: map<Id, ColumnRow>, cols: seq<ColumnRecord>) {
    && (forall i, j | 0 <= i < j < |cols| :: cols[i].id != cols[j].id)
    && (forall i | 0 <= i < |cols| ::
          cols[i].id in columns && columns[cols[i].id] == ColumnRow(cols[i].title, cols[i].position))
    && (forall c | c in columns :: exists i | 0 <= i < |cols| :: cols[i].id == c)
    && (forall i, j | 0 <= i < j < |cols| :: cols[i].position <= cols[j].position)
  }

  /** A board built from the column query lists every column of the table exactly once in
      `columnOrder`, in ascending column position, and has an entry for exactly those
      columns, each with its stored title. `b` is any board meeting `Build`'s
      postcondition. */
  lemma BuiltColumnOrder(columns: map<Id, ColumnRow>, cols: seq<ColumnRecord>, b: BoardState)
    requires ColumnsFor(columns, cols)
    requires |b.columnOrder| == |cols| && forall i | 0 <= i < |cols| :: b.columnOrder[i] == cols[i].id
    requires forall i | 0 <= i < |cols| :: cols[i].id in b.columns
    requires forall c | c in b.columns :: exists i | 0 <= i < |cols| :: cols[i].id == c && b.columns[c].title == cols[i].title
    ensures NoDup(b.columnOrder)
    ensures Elements(b.columnOrder) == columns.Keys
    ensures b.columns.Keys == columns.Keys
    ensures forall i, j | 0 <= i < j < |b.columnOrder| ::
      columns[b.columnOrder[i]].position <= columns[b.columnOrder[j]].position
    ensures forall c | c in b.columns :: b.columns[c].title == columns[c].title
  {
    OrderCoversColumns(columns, cols, b.columnOrder);
    BuiltEntriesStored(columns, cols, b);
  }

  /** The ids of the column rows, in row order, are exactly the table's columns. */
  lemma OrderCoversColumns(columns: map<Id, ColumnRow>, cols: seq<ColumnRecord>, order: seq<Id>)
    requires ColumnsFor(columns, cols)
    requires |order| == |cols| && forall i | 0 <= i < |cols| :: order[i] == cols[i].id
    ensures Elements(order) == columns.Keys
  {
    forall c | c in columns
      ensures c in Elements(order)
    {
      var i :| 0 <= i < |cols| && cols[i].id == c;
      assert order[i] == c;
    }
  }

  /** Every column entry of the board is a table column with its stored title. */
  lemma BuiltEntriesStored(columns: map<Id, ColumnRow>, cols: seq<ColumnRecord>, b: BoardState)
    requires ColumnsFor(columns, cols)
    requires forall i | 0 <= i < |cols| :: cols[i].id in b.columns
    requires forall c | c in b.columns :: exists i | 0 <= i < |cols| :: cols[i].id == c && b.columns[c].title == cols[i].title
    ensures b.columns.Keys == columns.Keys
    ensures forall c | c in b.columns :: b.columns[c].title == columns[c].title
  {
    forall c | c in b.columns
      ensures c in columns && b.columns[c].title == columns[c].title
    {
      var i :| 0 <= i < |cols| && cols[i].id == c && b.columns[c].title == cols[i].title;
    }
    forall c | c in columns
      ensures c in b.columns
    {
      var i :| 0 <= i < |cols| && cols[i].id == c;
    }
  }

  /** The ids of the rows, in row order. */
  function RowIds(rows: seq<TaskRecord>): seq<Id> {
    seq(|rows|, k requires 0 <= k < |rows| => rows[k].id)
  }

  /** Rows in ascending task position, as `ORDER BY t.position` returns them. */
  predicate ByPosition(rows: seq<TaskRecord>) {
    forall i, j | 0 <= i < j < |rows| :: rows[i].row.position <= rows[j].row.position
  }

  /** Filtering keeps the position order: each column's rows stay in ascending position. */
  lemma {:induction false} RowsInByPosition(rows: seq<TaskRecord>, c: Id)
    requires ByPosition(rows)
    ensures ByPosition(RowsIn(rows, c))
  {
    if |rows| > 0 {
      var front := rows[..|rows| - 1];
      assert ByPosition(front);
      RowsInByPosition(front, c);
    }
  }

  /** With distinct row ids, a column's list holds no id twice. */
  lemma {:induction false} IdsInNoDup(rows: seq<TaskRecord>, c: Id)
    requires NoDup(RowIds(rows))
    ensures NoDup(IdsIn(rows, c))
  {
    if |rows| > 0 {
      var front := rows[..|rows| - 1];
      assert RowIds(front) == RowIds(rows)[..|rows| - 1];
      IdsInNoDup(front, c);
      var last := rows[|rows| - 1];
      forall k | 0 <= k < |RowsIn(front, c)|
        ensures RowsIn(front, c)[k].id != last.id
      {
        var f := RowsIn(front, c)[k];
        var m :| 0 <= m < |front| && front[m] == f;
        assert RowIds(rows)[m] == f.id && RowIds(rows)[|rows| - 1] == last.id;
      }
    }
  }

  /** Each listed id belongs to a row of that column. */
  lemma IdsInFromRow(rows: seq<TaskRecord>, c: Id, id: Id)
    requires id in IdsIn(rows, c)
    ensures exists k | 0 <= k < |rows| :: rows[k].id == id && rows[k].row.column == c
  {
    var f := RowsIn(rows, c);
    var j :| 0 <= j < |f| && f[j].id == id;
    assert f[j] in rows;
  }

  /** With distinct row ids, a task id is listed in at most one column, and a task whose
      `column_id` names no column is listed nowhere. */
  lemma ListedOnce(rows: seq<TaskRecord>, c1: Id, c2: Id, id: Id)
    requires NoDup(RowIds(rows))
    requires id in IdsIn(rows, c1) && id in IdsIn(rows, c2)
    ensures c1 == c2
  {
    IdsInFromRow(rows, c1, id);
    IdsInFromRow(rows, c2, id);
    var k1 :| 0 <= k1 < |rows| && rows[k1].id == id && rows[k1].row.column == c1;
    var k2 :| 0 <= k2 < |rows| && rows[k2].id == id && rows[k2].row.column == c2;
    assert RowIds(rows)[k1] == RowIds(rows)[k2];
  }

  /** With distinct row ids, a row's id is listed only under the row's own column. */
  lemma ListedUnderOwnColumn(rows: seq<TaskRecord>, k: int, c: Id)
    requires NoDup(RowIds(rows)) && 0 <= k < |rows|
    ensures rows[k].id in IdsIn(rows, c) ==> rows[k].row.column == c
  {
    if rows[k].id in IdsIn(rows, c) {
      IdsInFromRow(rows, c, rows[k].id);
      var m :| 0 <= m < |rows| && rows[m].id == rows[k].id && rows[m].row.column == c;
      assert RowIds(rows)[m] == RowIds(rows)[k];
    }
  }

  /** A task whose `column_id` names no column is recorded but listed in no column. */
  lemma OrphanListedNowhere(rows: seq<TaskRecord>, b: BoardState, k: int)
    requires NoDup(RowIds(rows)) && 0 <= k < |rows|
    requires forall c | c in b.columns :: b.columns[c].taskIds == IdsIn(rows, c)
    requires rows[k].row.column !in b.columns
    ensures forall c | c in b.columns :: rows[k].id !in b.columns[c].taskIds
  {
    forall c | c in b.columns
      ensures rows[k].id !in b.columns[c].taskIds
    {
      ListedUnderOwnColumn(rows, k, c);
    }
  }
}

=== FILE: common.dfy ===
/** Shared vocabulary: identifiers, optional values and duplicate-free sequences. */
module Common {

  /** Task, column and tag identifiers are plain strings (`'column-1'`, `'1700000000000-k3j9x2a1b'`). */
  type Id = string

  /** A value that may be absent: a JSON field left out of a request body, a SQL NULL. */
  datatype Option<+T> = None | Some(value: T) {

    /** The carried value, or `default` when absent. */
    function GetOr(default: T): T {
      match this
      case Some(v) => v
      case None => default
    }
  }

  /** JavaScript truthiness of a string that may be missing: `undefined`, `null` and `''` are falsy. */
  predicate Truthy(o: Option<string>) {
    o.Some? && o.value != ""
  }

  /** The JavaScript expression `o || fallback` on a string that may be missing. */
  function Or(o: Option<string>, fallback: string): (r: string)
    ensures Truthy(o) ==> r == o.value
    ensures !Truthy(o) ==> r == fallback
  {
    if Truthy(o) then o.value else fallback
  }

  /** No element occurs twice. */
  predicate NoDup<T(==)>(s: seq<T>) {
    forall i, j | 0 <= i < j < |s| :: s[i] != s[j]
  }

  /** The elements of a sequence, as a set. */
  function Elements<T>(s: seq<T>): set<T> {
    set x | x in s
  }

  /** A duplicate-free sequence has as many elements as its set. */
  lemma {:induction false} NoDupCard<T>(s: seq<T>)
    requires NoDup(s)
    ensures |Elements(s)| == |s|
  {
    if |s| > 0 {
      var init := s[..|s| - 1];
      assert NoDup(init);
      NoDupCard(init);
      assert Elements(s) == Elements(init) + {s[|s| - 1]};
      assert s[|s| - 1] !in Elements(init);
    } else {
      assert Elements(s) == {};
    }
  }
}

=== FILE: create.dfy ===
/** `POST /api/tasks` (api/tasks.ts): checks the required fields, appends the new task
    after the last position of its column, inserts its tags by name and links them. */
module CreateHandler {
  import opened Common
  import opened Store
  import opened Projection

  /** The request: its HTTP method and the body fields, each possibly absent. */
  datatype CreateRequest = CreateRequest(
    httpMethod: string,
    title: Option<string>,
    description: Option<string>,
    priority: Option<string>,
    tags: Option<seq<string>>,
    columnId: Option<string>)

  /** The answer: 201 with the created task, 400, 405, or 500 when the insert is refused. */
  datatype Reply = Created(task: Task) | BadRequest | MethodNotAllowed | ServerError {
    function Code(): int {
      match this
      case Created(_) => 201
      case BadRequest => 400
      case MethodNotAllowed => 405
      case ServerError => 500
    }
  }

  /** `next` is `COALESCE(MAX(position), -1) + 1` over the rows of column `c`. */
  ghost predicate IsNextPosition(t: Table, c: Id, next: int) {
    && (forall id | id in t && t[id].column == c :: t[id].position < next)
    && (Members(t, c) == {} ==> next == 0)
    && (Members(t, c) != {} ==> exists id | id in t && t[id].column == c :: t[id].position == next - 1)
  }

  /** The position query: one past the largest position in column `c`, or 0 when the
      column has no rows. */
  method NextPosition(t: Table, c: Id) returns (next: int)
    ensures IsNextPosition(t, c, next)
  {
    var max: Option<int> := None;
    var rest := t.Keys;
    while rest != {}
      invariant rest <= t.Keys
      invariant max.None? ==> forall id | id in t && id !in rest :: t[id].column != c
      invariant max.Some? ==> forall id | id in t && id !in rest && t[id].column == c :: t[id].position <= max.value
      invariant max.Some? ==> exists id | id in t && id !in rest && t[id].column == c :: t[id].position == max.value
      decreases |rest|
    {
      var id :| id in rest;
      if t[id].column == c && (max.None? || t[id].position > max.value) {
        max := Some(t[id].position);
      }
      rest := rest - {id};
    }
    next := if max.None? then 0 else max.value + 1;
    if max.None? {
      assert forall id | id in t :: t[id].column != c;
      assert Members(t, c) == {};
    } else {
      assert exists id | id in t && t[id].column == c :: t[id].position == next - 1;
    }
  }

  /** On a contiguous column, the maximum position plus one is the column's size. */
  lemma NextPositionIsSize(t: Table, c: Id, next: int)
    requires Contiguous(t, c) && IsNextPosition(t, c, next)
    ensures next == |Members(t, c)|
  {
    var n := |Members(t, c)|;
    if n > 0 {
      var y :| y in t && t[y].column == c && t[y].position == next - 1;
      assert next - 1 in Positions(t, c);
      assert n - 1 in Upto(n);
      var z :| z in t && t[z].column == c && t[z].position == n - 1;
    }
  }

  /** Appending a row to the end of a contiguous column keeps it contiguous. */
  lemma AppendKeepsColumn(t: Table, x: Id, row: TaskRow)
    requires x !in t && Contiguous(t, row.column) && row.position == |Members(t, row.column)|
    ensures Contiguous(t[x := row], row.column)
  {
    var t' := t[x := row];
    var ids := ContiguousIsArranged(t, row.column);
    ArrangesMembers(t, row.column, ids);
    var grown := ids + [x];
    forall i | 0 <= i < |grown|
      ensures grown[i] in t' && t'[grown[i]].column == row.column && t'[grown[i]].position == i
    {
      if i < |ids| {
        assert grown[i] == ids[i] && ids[i] != x;
      }
    }
    forall id | id in t' && t'[id].column == row.column
      ensures id in grown
    {
      if id != x {
        assert id in ids;
      }
    }
    ArrangesIsContiguous(t', row.column, grown);
  }

  /** Inserting a row leaves the contiguity of every other column as it was. */
  lemma InsertLeavesOthers(t: Table, x: Id, row: TaskRow, c: Id)
    requires x !in t && c != row.column
    ensures Contiguous(t[x := row], c) <==> Contiguous(t, c)
  {
    var t' := t[x := row];
    assert Members(t', c) == Members(t, c);
    forall p | p in Positions(t', c)
      ensures p in Positions(t, c)
    {
      var id :| id in t' && t'[id].column == c && t'[id].position == p;
      assert id in t && t[id].column == c;
    }
    forall p | p in Positions(t, c)
      ensures p in Positions(t', c)
    {
      var id :| id in t && t[id].column == c && t[id].position == p;
      assert id in t' && t'[id].column == c;
    }
  }

  /** Appending a row to the end of a contiguous column keeps every column contiguous. */
  lemma AppendKeepsOrder(t: Table, x: Id, row: TaskRow)
    requires x !in t && AllContiguous(t) && row.position == |Members(t, row.column)|
    ensures AllContiguous(t[x := row])
  {
    var t' := t[x := row];
    AppendKeepsColumn(t, x, row);
    forall c
      ensures Contiguous(t', c)
    {
      if c != row.column {
        InsertLeavesOthers(t, x, row, c);
      }
    }
  }

  /** The tag ids in use. */
  function TagIds(tags: map<string, int>): set<int> {
    tags.Values
  }

  /** Every tag id was handed out by the SERIAL sequence before `serial`. */
  predicate TagsBelow(tags: map<string, int>, serial: int) {
    forall n | n in tags :: tags[n] < serial
  }

  /** No two tag names share an id. */
  predicate TagIdsDistinct(tags: map<string, int>) {
    forall n, m | n in tags && m in tags && tags[n] == tags[m] :: n == m
  }

  /** The constraints the schema keeps: `column_id` references a column, tag ids come
      from the sequence and are distinct, and every link names a task and a tag. */
  ghost predicate WF(db: Db) {
    && (forall id | id in db.tasks :: db.tasks[id].column in db.columns)
    && TagsBelow(db.tags, db.tagSerial)
    && TagIdsDistinct(db.tags)
    && forall l | l in db.links :: l.0 in db.tasks && l.1 in TagIds(db.tags)
  }

  /** The names of the tags linked to task `x`. */
  function LinkedNames(db: Db, x: Id): set<string> {
    set n | n in db.tags && (x, db.tags[n]) in db.links
  }

  /** One tag of the loop: `INSERT INTO tags (name) ... ON CONFLICT (name) DO NOTHING`
      (which draws a SERIAL value even when the name exists), the id lookup by name,
      and the link insert, itself ignored on conflict. */
  function LinkOne(db: Db, x: Id, name: string): (r: Db)
    ensures r.columns == db.columns && r.tasks == db.tasks
    ensures r.tagSerial == db.tagSerial + 1
    ensures r.tags.Keys == db.tags.Keys + {name}
    ensures forall n | n in db.tags :: r.tags[n] == db.tags[n]
    ensures name !in db.tags ==> r.tags[name] == db.tagSerial
    ensures r.links == db.links + {(x, r.tags[name])}
  {
    var tags := if name in db.tags then db.tags else db.tags[name := db.tagSerial];
    db.(tags := tags, tagSerial := db.tagSerial + 1, links := db.links + {(x, tags[name])})
  }

  /** The tag loop over `names`, in order. Names already present keep their id; each new
      name gets a fresh SERIAL value; the links added are one per distinct name. */
  function LinkTags(db: Db, x: Id, names: seq<string>): (r: Db)
    ensures r.columns == db.columns && r.tasks == db.tasks
    ensures r.tagSerial == db.tagSerial + |names|
    ensures r.tags.Keys == db.tags.Keys + Elements(names)
    ensures forall n | n in db.tags :: r.tags[n] == db.tags[n]
    ensures forall n | n in r.tags && n !in db.tags :: db.tagSerial <= r.tags[n] < r.tagSerial
    ensures r.links == db.links + set n | n in Elements(names) :: (x, r.tags[n])
    ensures TagsBelow(db.tags, db.tagSerial) && TagIdsDistinct(db.tags) ==>
      TagsBelow(r.tags, r.tagSerial) && TagIdsDistinct(r.tags)
    decreases |names|
  {
    if |names| == 0 then db
    else
      LinkOneKeepsTags(db, x, names[0]);
      LinkTags(LinkOne(db, x, names[0]), x, names[1..])
  }

  /** One step of the tag loop keeps tag ids below the sequence and distinct: a new name
      takes the sequence's current value, which no name had yet. */
  lemma LinkOneKeepsTags(db: Db, x: Id, name: string)
    ensures var r := LinkOne(db, x, name);
      TagsBelow(db.tags, db.tagSerial) && TagIdsDistinct(db.tags) ==>
        TagsBelow(r.tags, r.tagSerial) && TagIdsDistinct(r.tags)
  {
    var r := LinkOne(db, x, name);
    if TagsBelow(db.tags, db.tagSerial) && TagIdsDistinct(db.tags) && name !in db.tags {
      forall n, m | n in r.tags && m in r.tags && r.tags[n] == r.tags[m]
        ensures n == m
      {
        if n != name && m != name {
          assert db.tags[n] == db.tags[m];
        }
      }
    }
  }

  /** When task `x` had no links, after the tag loop the names linked to it are exactly
      the distinct names of the loop. */
  lemma LinkedExactly(db: Db, x: Id, names: seq<string>)
    requires TagsBelow(db.tags, db.tagSerial) && TagIdsDistinct(db.tags)
    requires forall l | l in db.links :: l.0 != x
    ensures LinkedNames(LinkTags(db, x, names), x) == Elements(names)
  {
    var r := LinkTags(db, x, names);
    forall n | n in LinkedNames(r, x)
      ensures n in Elements(names)
    {
      assert (x, r.tags[n]) !in db.links;
      var m :| m in Elements(names) && (x, r.tags[n]) == (x, r.tags[m]);
    }
    forall n | n in Elements(names)
      ensures n in LinkedNames(r, x)
    {
      assert (x, r.tags[n]) in r.links;
    }
  }

  /** The handler. `x` is the generated id and `now` the timestamp; both are inputs here. */
  method Create(db: Db, req: CreateRequest, x: Id, now: string) returns (reply: Reply, after: Db)
    // wrong method, missing field: nothing is written
    ensures req.httpMethod != "POST" ==> reply == MethodNotAllowed && after == db
    ensures req.httpMethod == "POST" && !(Truthy(req.title) && Truthy(req.columnId)) ==>
      reply == BadRequest && after == db
    // the insert is refused by the foreign key, the primary key or the priority check
    ensures reply.ServerError? <==>
      && req.httpMethod == "POST" && Truthy(req.title) && Truthy(req.columnId)
      && (req.columnId.value !in db.columns || x in db.tasks || !ValidPriority(Or(req.priority, "medium")))
    ensures reply.ServerError? ==> after == db
    // the response echoes the request with its defaults
    ensures reply.Created? ==>
      reply.task == Task(x, req.title.value, Or(req.description, ""), Or(req.priority, "medium"),
                         req.columnId.value, req.tags.GetOr([]), now, now)
    // one row is added, after the column's last position; no other row changes
    ensures reply.Created? ==>
      var c := req.columnId.value;
      && x !in db.tasks
      && after.tasks.Keys == db.tasks.Keys + {x}
      && (forall id | id in db.tasks :: after.tasks[id] == db.tasks[id])
      && after.tasks[x] == TaskRow(req.title.value, Some(Or(req.description, "")), Or(req.priority, "medium"),
                                   c, after.tasks[x].position, now, now)
      && after.tasks[x].column == c
      && after.tasks[x].description == Some(Or(req.description, ""))
      && after.tasks[x].priority == Or(req.priority, "medium")
      && IsNextPosition(db.tasks, c, after.tasks[x].position)
      && after.columns == db.columns
    ensures reply.Created? && AllContiguous(db.tasks) ==>
      && after.tasks[x].position == |Members(db.tasks, req.columnId.value)|
      && AllContiguous(after.tasks)
    // tags: one SERIAL value per listed name; the task is linked to each distinct name
    ensures reply.Created? ==>
      && after.tagSerial == db.tagSerial + |req.tags.GetOr([])|
      && after.tags.Keys == db.tags.Keys + Elements(req.tags.GetOr([]))
      && forall n | n in db.tags :: after.tags[n] == db.tags[n]
    ensures reply.Created? && WF(db) ==>
      WF(after) && LinkedNames(after, x) == Elements(req.tags.GetOr([]))
  {
    if req.httpMethod != "POST" {
      return MethodNotAllowed, db;
    }
    if !Truthy(req.title) || !Truthy(req.columnId) {
      return BadRequest, db;
    }
    var c := req.columnId.value;
    var position := NextPosition(db.tasks, c);
    var description := Or(req.description, "");
    var priority := Or(req.priority, "medium");
    if c !in db.columns || x in db.tasks || !ValidPriority(priority) {
      return ServerError, db;
    }
    var row := TaskRow(req.title.value, Some(description), priority, c, position, now, now);
    var names := req.tags.GetOr([]);
    if AllContiguous(db.tasks) {
      NextPositionIsSize(db.tasks, c, position);
    }
    after := Insert(db, x, row, names);
    reply := Created(Task(x, req.title.value, description, priority, c, names, now, now));
  }

  /** The task insert followed by the tag loop, once the insert is accepted. */
  method Insert(db: Db, x: Id, row: TaskRow, names: seq<string>) returns (after: Db)
    requires x !in db.tasks && row.column in db.columns
    ensures after.tasks == db.tasks[x := row] && after.columns == db.columns
    ensures after.tagSerial == db.tagSerial + |names|
    ensures after.tags.Keys == db.tags.Keys + Elements(names)
    ensures forall n | n in db.tags :: after.tags[n] == db.tags[n]
    ensures AllContiguous(db.tasks) && row.position == |Members(db.tasks, row.column)| ==> AllContiguous(after.tasks)
    ensures WF(db) ==> WF(after) && LinkedNames(after, x) == Elements(names)
  {
    var inserted := db.(tasks := db.tasks[x := row]);
    after := LinkTags(inserted, x, names);
    if AllContiguous(db.tasks) && row.position == |Members(db.tasks, row.column)| {
      AppendKeepsOrder(db.tasks, x, row);
    }
    if WF(db) {
      LinkedExactly(inserted, x, names);
      CreateKeepsWF(db, inserted, after, x, names);
    }
  }

  /** The insert and the tag loop keep the schema's constraints. */
  lemma CreateKeepsWF(db: Db, inserted: Db, after: Db, x: Id, names: seq<string>)
    requires WF(db) && x !in db.tasks && x in inserted.tasks
    requires inserted == db.(tasks := inserted.tasks)
    requires inserted.tasks.Keys == db.tasks.Keys + {x}
    requires inserted.tasks[x].column in db.columns
    requires forall id | id in db.tasks :: inserted.tasks[id] == db.tasks[id]
    requires after == LinkTags(inserted, x, names)
    ensures WF(after)
  {
    assert after.tasks == inserted.tasks && after.columns == db.columns;
    assert TagsBelow(after.tags, after.tagSerial) && TagIdsDistinct(after.tags);
    forall id | id in after.tasks
      ensures after.tasks[id].column in after.columns
    {
      if id != x {
        assert id in db.tasks;
      }
    }
    LinksStayValid(db, inserted, x, names);
  }

  /** After the tag loop every link still names a task and a tag. */
  lemma LinksStayValid(db: Db, inserted: Db, x: Id, names: seq<string>)
    requires WF(db) && x in inserted.tasks
    requires inserted == db.(tasks := inserted.tasks)
    requires db.tasks.Keys <= inserted.tasks.Keys
    ensures var after := LinkTags(inserted, x, names);
      forall l | l in after.links :: l.0 in after.tasks && l.1 in TagIds(after.tags)
  {
    var after := LinkTags(inserted, x, names);
    forall l | l in after.links
      ensures l.0 in after.tasks && l.1 in TagIds(after.tags)
    {
      if l in db.links {
        LinkSurvives(db, after, l);
      } else {
        NewLinkNamesTag(inserted, x, names, l);
      }
    }
  }

  /** A link the tag loop adds names the task and one of the loop's tags. */
  lemma NewLinkNamesTag(db: Db, x: Id, names: seq<string>, l: (Id, int))
    requires l in LinkTags(db, x, names).links && l !in db.links
    ensures l.0 == x && l.1 in TagIds(LinkTags(db, x, names).tags)
  {
    var r := LinkTags(db, x, names);
    var n :| n in Elements(names) && l == (x, r.tags[n]);
    assert r.tags[n] in r.tags.Values;
  }

  /** A link that was valid before the tag loop still names a task and a tag after it. */
  lemma LinkSurvives(db: Db, after: Db, l: (Id, int))
    requires l in db.links && WF(db)
    requires db.tasks.Keys <= after.tasks.Keys
    requires forall n | n in db.tags :: n in after.tags && after.tags[n] == db.tags[n]
    ensures l.0 in after.tasks && l.1 in TagIds(after.tags)
  {
    assert l.1 in db.tags.Values;
    var n :| n in db.tags && db.tags[n] == l.1;
    assert after.tags[n] in after.tags.Values;
  }
}

=== FILE: drag.dfy ===
/** Drag and drop on the board (src/components/Board.tsx): which `moveTask` call, if any,
    a drag-over or a drag-end event asks for, and which tasks a column shows. */
module DragIntent {
  import opened Common
  import opened Store
  import opened Projection
  import opened JsArray
  import opened MoveHandler
  import opened UseBoard
  import opened Agreement

  /** What a drag event handler does: nothing, one `moveTask(taskId, from, to, index)`
      call, or throws a `TypeError` reading `taskIds` of an undefined column. */
  datatype Intent = NoMove | Move(taskId: Id, from: Id, to: Id, index: int) | Fault

  /** `handleDragOver`. `over` is the id of the column or task under the pointer, if any.
      A column under the pointer is checked before a task with the same id. */
  function DragOver(b: BoardState, active: Id, over: Option<Id>): (r: Intent)
    ensures over.None? || active !in b.tasks ==> r == NoMove
    ensures over.Some? && active in b.tasks && over.value in b.columns ==>
      r == (if b.tasks[active].columnId == over.value then NoMove
            else Move(active, b.tasks[active].columnId, over.value, |b.columns[over.value].taskIds|))
    ensures over.Some? && active in b.tasks && over.value !in b.columns ==>
      if over.value in b.tasks && b.tasks[active].columnId != b.tasks[over.value].columnId then
        var e := b.tasks[over.value].columnId;
        r == (if e in b.columns then Move(active, b.tasks[active].columnId, e, IndexOf(b.columns[e].taskIds, over.value))
              else Fault)
      else r == NoMove
  {
    if over.None? || active !in b.tasks then NoMove
    else
      var o := over.value;
      var task := b.tasks[active];
      if o in b.columns then
        if task.columnId != o then Move(active, task.columnId, o, |b.columns[o].taskIds|) else NoMove
      else if o in b.tasks && task.columnId != b.tasks[o].columnId then
        var e := b.tasks[o].columnId;
        if e in b.columns then Move(active, task.columnId, e, IndexOf(b.columns[e].taskIds, o)) else Fault
      else NoMove
  }

  /** `handleDragEnd`: only a drop onto another task of the same column moves anything. */
  function DragEnd(b: BoardState, active: Id, over: Option<Id>): (r: Intent)
    ensures over.None? || over == Some(active) || active !in b.tasks ==> r == NoMove
    ensures r.Move? ==>
      && over.Some? && over.value != active
      && active in b.tasks && over.value in b.tasks
      && r.taskId == active
      && r.from == r.to == b.tasks[active].columnId == b.tasks[over.value].columnId
      && r.from in b.columns
      && r.index == IndexOf(b.columns[r.from].taskIds, over.value)
    ensures r.Fault? <==>
      && over.Some? && over.value != active && active in b.tasks && over.value in b.tasks
      && b.tasks[active].columnId == b.tasks[over.value].columnId
      && b.tasks[active].columnId !in b.columns
    ensures (&& over.Some? && over.value != active && active in b.tasks && over.value in b.tasks
             && b.tasks[active].columnId == b.tasks[over.value].columnId
             && b.tasks[active].columnId in b.columns) ==> r.Move?
  {
    if over.None? || over.value == active || active !in b.tasks then NoMove
    else
      var o := over.value;
      var task := b.tasks[active];
      if o in b.tasks && task.columnId == b.tasks[o].columnId then
        var c := task.columnId;
        if c in b.columns then Move(active, c, c, IndexOf(b.columns[c].taskIds, o)) else Fault
      else NoMove
  }

  /** Every task's column exists and lists the task. */
  ghost predicate Consistent(b: BoardState) {
    forall id | id in b.tasks :: b.tasks[id].columnId in b.columns && id in b.columns[b.tasks[id].columnId].taskIds
  }

  /** On a consistent board a drag-over never throws, and a move it asks for leaves the
      task's own column for another one, at an index from 0 to the length of the target
      list: the range in which the server's shift agrees with the client's splice. */
  lemma DragOverInRange(b: BoardState, active: Id, over: Option<Id>)
    requires Consistent(b)
    ensures !DragOver(b, active, over).Fault?
    ensures var r := DragOver(b, active, over);
      r.Move? ==>
        && r.taskId == active && active in b.tasks
        && r.from == b.tasks[active].columnId && r.from in b.columns && r.to in b.columns && r.from != r.to
        && 0 <= r.index <= |b.columns[r.to].taskIds|
  {
  }

  /** On a consistent board a drag-end never throws, and a move it asks for stays in the
      task's own column at an index inside the column. */
  lemma DragEndInRange(b: BoardState, active: Id, over: Option<Id>)
    requires Consistent(b)
    ensures !DragEnd(b, active, over).Fault?
    ensures var r := DragEnd(b, active, over);
      r.Move? ==>
        && r.taskId == active && active in b.tasks
        && r.from == r.to == b.tasks[active].columnId && r.from in b.columns
        && 0 <= r.index < |b.columns[r.from].taskIds|
  {
  }

  /** A move asked for by a drag-over or a drag-end on a consistent board that mirrors the
      table keeps the two in step once both the client and the server have applied it
      (the server answers 400 to an empty id, so the ids are non-empty). */
  lemma DragMoveAgrees(t: Table, b: BoardState, active: Id, over: Option<Id>, intent: Intent, now: string)
    requires Mirrors(t, b) && Consistent(b)
    requires intent == DragOver(b, active, over) || intent == DragEnd(b, active, over)
    requires intent.Move? && intent.taskId != "" && intent.from != "" && intent.to != ""
    ensures var x, s, e, d := intent.taskId, intent.from, intent.to, intent.index;
      && Handle(t, Request(x, s, e, d), now).status == Ok
      && MoveTask(b, x, s, e, d, now).Some?
      && Mirrors(Handle(t, Request(x, s, e, d), now).tasks, MoveTask(b, x, s, e, d, now).value)
  {
    if intent == DragOver(b, active, over) {
      DragOverInRange(b, active, over);
    } else {
      DragEndInRange(b, active, over);
    }
    MoveAgrees(t, b, intent.taskId, intent.from, intent.to, intent.index, now);
  }

  /** The tasks a column shows: its ids looked up in `tasks`, ids without an entry dropped
      (`taskIds.map((id) => tasks[id]).filter(Boolean)`). */
  function VisibleTasks(tasks: map<Id, Task>, ids: seq<Id>): (r: seq<Task>)
    ensures |r| <= |ids|
    ensures forall j | 0 <= j < |ids| && ids[j] in tasks :: tasks[ids[j]] in r
    ensures (forall j | 0 <= j < |ids| :: ids[j] in tasks) ==>
      |r| == |ids| && forall k | 0 <= k < |r| :: r[k] == tasks[ids[k]]
  {
    if |ids| == 0 then []
    else
      var rest := VisibleTasks(tasks, ids[1..]);
      if ids[0] in tasks then [tasks[ids[0]]] + rest else rest
  }

  /** Looking up a concatenation of lists shows the tasks of the first list, then those of
      the second: entries are dropped one id at a time, without regard to the neighbours. */
  lemma {:induction false} VisibleTasksAppend(tasks: map<Id, Task>, a: seq<Id>, b: seq<Id>)
    ensures VisibleTasks(tasks, a + b) == VisibleTasks(tasks, a) + VisibleTasks(tasks, b)
  {
    if |a| == 0 {
      assert a + b == b;
    } else {
      assert (a + b)[0] == a[0];
      assert (a + b)[1..] == a[1..] + b;
      VisibleTasksAppend(tasks, a[1..], b);
    }
  }

  /** `task` is the entry of one of the ids. */
  predicate EntryOf(tasks: map<Id, Task>, ids: seq<Id>, task: Task) {
    exists j | 0 <= j < |ids| :: ids[j] in tasks && task == tasks[ids[j]]
  }

  /** Every task a column shows is the entry of one of its ids. */
  lemma {:induction false} VisibleTasksListed(tasks: map<Id, Task>, ids: seq<Id>)
    ensures forall k | 0 <= k < |VisibleTasks(tasks, ids)| :: EntryOf(tasks, ids, VisibleTasks(tasks, ids)[k])
  {
    if |ids| > 0 {
      var rest := VisibleTasks(tasks, ids[1..]);
      VisibleTasksListed(tasks, ids[1..]);
      var r := VisibleTasks(tasks, ids);
      forall k | 0 <= k < |r|
        ensures EntryOf(tasks, ids, r[k])
      {
        if ids[0] in tasks && k == 0 {
          assert r[0] == tasks[ids[0]];
        } else {
          var i := if ids[0] in tasks then k - 1 else k;
          assert r[k] == rest[i];
          assert EntryOf(tasks, ids[1..], rest[i]);
          var j :| 0 <= j < |ids[1..]| && ids[1..][j] in tasks && rest[i] == tasks[ids[1..][j]];
          assert ids[j + 1] == ids[1..][j];
        }
      }
    }
  }
}

=== FILE: js_array.dfy ===
/** The JavaScript array operations the client's projection relies on:
    `indexOf`, `splice(i, 1)`, `splice(start, 0, x)` and `filter`. */
module JsArray {
  import opened Common

  /** `s.indexOf(x)`: the first index holding `x`, or -1. */
  function IndexOf<T(==)>(s: seq<T>, x: T): (r: int)
    ensures -1 <= r < |s|
    ensures r == -1 <==> x !in s
    ensures 0 <= r ==> s[r] == x && forall j | 0 <= j < r :: s[j] != x
  {
    if |s| == 0 then -1
    else if s[0] == x then 0
    else
      var k := IndexOf(s[1..], x);
      if k == -1 then -1 else k + 1
  }

  /** In a duplicate-free sequence the index of an element is the only place it occurs. */
  lemma IndexOfNoDup<T>(s: seq<T>, i: int)
    requires NoDup(s) && 0 <= i < |s|
    ensures IndexOf(s, s[i]) == i
  {
  }

  /** `s.splice(i, 1)` for an index inside the array: drops the element at `i`. */
  function RemoveAt<T>(s: seq<T>, i: int): (r: seq<T>)
    requires 0 <= i < |s|
    ensures |r| == |s| - 1
    ensures forall j | 0 <= j < i :: r[j] == s[j]
    ensures forall j | i <= j < |r| :: r[j] == s[j + 1]
  {
    s[..i] + s[i + 1..]
  }

  /** Dropping the element at `i` keeps every other value the array held. */
  lemma RemoveAtKeeps<T>(s: seq<T>, i: int, y: T)
    requires 0 <= i < |s| && y in s && y != s[i]
    ensures y in RemoveAt(s, i)
  {
    var m :| 0 <= m < |s| && s[m] == y;
    if m < i {
      assert RemoveAt(s, i)[m] == y;
    } else {
      assert RemoveAt(s, i)[m - 1] == y;
    }
  }

  /** The index `splice` really starts at: a negative start counts back from the end,
      and the result is clamped into `[0, len]`. */
  function SpliceStart(len: nat, start: int): (k: nat)
    ensures k <= len
    ensures 0 <= start <= len ==> k == start
    ensures start > len ==> k == len
    ensures -(len as int) <= start < 0 ==> k as int == len as int + start
    ensures start < -(len as int) ==> k == 0
  {
    if start < 0 then (if len + start < 0 then 0 else len + start)
    else if start > len then len
    else start
  }

  /** `s.splice(start, 0, x)`: inserts `x` at the clamped start index. */
  function InsertAt<T>(s: seq<T>, start: int, x: T): (r: seq<T>)
    ensures |r| == |s| + 1
    ensures r[SpliceStart(|s|, start)] == x
    ensures forall j | 0 <= j < SpliceStart(|s|, start) :: r[j] == s[j]
    ensures forall j | SpliceStart(|s|, start) < j < |r| :: r[j] == s[j - 1]
  {
    var k := SpliceStart(|s|, start);
    s[..k] + [x] + s[k..]
  }

  /** Removing then re-inserting at any start keeps exactly the same elements. */
  lemma RemoveInsertPermutes<T>(s: seq<T>, i: int, start: int)
    requires 0 <= i < |s|
    ensures multiset(InsertAt(RemoveAt(s, i), start, s[i])) == multiset(s)
  {
    var r := RemoveAt(s, i);
    var k := SpliceStart(|r|, start);
    assert s == s[..i] + [s[i]] + s[i + 1..];
    assert multiset(s) == multiset(s[..i]) + multiset{s[i]} + multiset(s[i + 1..]);
    assert multiset(r) == multiset(s[..i]) + multiset(s[i + 1..]);
    assert r == r[..k] + r[k..];
    assert multiset(r) == multiset(r[..k]) + multiset(r[k..]);
    var ins := InsertAt(r, start, s[i]);
    assert ins == r[..k] + [s[i]] + r[k..];
    assert multiset(ins) == multiset(r[..k]) + multiset{s[i]} + multiset(r[k..]);
    assert multiset(ins) == multiset(r) + multiset{s[i]};
  }

  /** Removing an element and putting it back where it was is the identity. */
  lemma RemoveInsertSameIndex<T>(s: seq<T>, i: int)
    requires 0 <= i < |s|
    ensures InsertAt(RemoveAt(s, i), i, s[i]) == s
  {
    var r := InsertAt(RemoveAt(s, i), i, s[i]);
    assert forall j | 0 <= j < |s| :: r[j] == s[j];
  }

  /** `s.filter((y) => y !== x)`: every occurrence of `x` dropped, order kept. */
  function Without<T(==)>(s: seq<T>, x: T): (r: seq<T>)
    ensures x !in r
    ensures forall j | 0 <= j < |r| :: r[j] in s
    ensures forall j | 0 <= j < |s| && s[j] != x :: s[j] in r
    ensures |r| <= |s|
    ensures x !in s ==> r == s
    ensures multiset(r) == multiset(s)[x := 0]
  {
    if |s| == 0 then []
    else
      assert s == [s[0]] + s[1..];
      if s[0] == x then Without(s[1..], x)
      else [s[0]] + Without(s[1..], x)
  }

  /** Filtering works element by element, so it keeps the order of what it keeps:
      filtering a concatenation is concatenating the filtered parts. */
  lemma {:induction false} WithoutAppend<T>(a: seq<T>, b: seq<T>, x: T)
    ensures Without(a + b, x) == Without(a, x) + Without(b, x)
  {
    if |a| == 0 {
      assert a + b == b;
    } else {
      assert (a + b)[0] == a[0];
      assert (a + b)[1..] == a[1..] + b;
      WithoutAppend(a[1..], b, x);
    }
  }

  /** When `x` occurs exactly once, at `i`, filtering it out is the same as splicing `i` out. */
  lemma {:induction false} WithoutSingle<T>(s: seq<T>, i: int)
    requires NoDup(s) && 0 <= i < |s|
    ensures Without(s, s[i]) == RemoveAt(s, i)
  {
    var x, before, after := s[i], s[..i], s[i + 1..];
    NoDupSplit(s, i);
    assert s == before + ([x] + after);
    WithoutAppend(before, [x] + after, x);
    WithoutCons(x, after);
    assert Without(before, x) == before && Without(after, x) == after;
    assert Without(s, x) == before + after;
  }

  /** In a duplicate-free sequence, the element at `i` occurs neither before nor after `i`. */
  lemma NoDupSplit<T>(s: seq<T>, i: int)
    requires NoDup(s) && 0 <= i < |s|
    ensures s[i] !in s[..i] && s[i] !in s[i + 1..]
  {
    var before, after := s[..i], s[i + 1..];
    forall j | 0 <= j < |before| ensures before[j] != s[i] { assert before[j] == s[j]; }
    forall j | 0 <= j < |after| ensures after[j] != s[i] { assert after[j] == s[i + 1 + j]; }
  }

  /** Filtering `x` out of `[x] + s` is filtering it out of `s`. */
  lemma WithoutCons<T>(x: T, s: seq<T>)
    ensures Without([x] + s, x) == Without(s, x)
  {
    assert ([x] + s)[0] == x && ([x] + s)[1..] == s;
  }
}

=== FILE: move.dfy ===
/** `PUT /api/tasks/move` (api/tasks/move.ts): relocates one task by bulk position
    shifts on the `tasks` table followed by one placing update. */
module MoveHandler {
  import opened Common
  import opened Store
  import JsArray

  /** The HTTP statuses the handler answers with (500 for a failing query is not modelled). */
  datatype Status = Ok | BadRequest | NotFound | MethodNotAllowed {
    function Code(): int {
      match this
      case Ok => 200
      case BadRequest => 400
      case NotFound => 404
      case MethodNotAllowed => 405
    }
  }

  /** The request: its HTTP method and the four body fields, each possibly absent. */
  datatype MoveRequest = MoveRequest(
    httpMethod: string,
    taskId: Option<string>,
    sourceColumnId: Option<string>,
    destinationColumnId: Option<string>,
    destinationIndex: Option<int>)

  /** The status sent back and the `tasks` table afterwards. */
  datatype Outcome = Outcome(status: Status, tasks: Table)

  /** The position range of one `WHERE` clause: `lo <= position <= hi`, or `lo <= position`. */
  datatype Window = Between(lo: int, hi: int) | From(lo: int) {
    predicate Contains(p: int) {
      match this
      case Between(lo, hi) => lo <= p <= hi
      case From(lo) => lo <= p
    }
  }

  /** `UPDATE tasks SET position = position + delta WHERE column_id = c AND <position in w>`. */
  function Shift(t: Table, c: Id, w: Window, delta: int): (r: Table)
    ensures r.Keys == t.Keys
  {
    map id | id in t ::
      if t[id].column == c && w.Contains(t[id].position)
      then t[id].(position := t[id].position + delta)
      else t[id]
  }

  /** `UPDATE tasks SET position = p, updated_at = now WHERE id = x`. */
  function PlaceAt(t: Table, x: Id, p: int, now: string): (r: Table)
    requires x in t
    ensures r.Keys == t.Keys
  {
    t[x := t[x].(position := p, updatedAt := now)]
  }

  /** `UPDATE tasks SET column_id = c, position = p, updated_at = now WHERE id = x`. */
  function PlaceIn(t: Table, x: Id, c: Id, p: int, now: string): (r: Table)
    requires x in t
    ensures r.Keys == t.Keys
  {
    t[x := t[x].(column := c, position := p, updatedAt := now)]
  }

  /** The handler. `now` is the timestamp it stamps on the moved task. */
  function Handle(t: Table, req: MoveRequest, now: string): (r: Outcome)
    // wrong method, missing field, unknown task: nothing is written
    ensures req.httpMethod != "PUT" ==> r == Outcome(MethodNotAllowed, t)
    ensures req.httpMethod == "PUT" && !Complete(req) ==> r == Outcome(BadRequest, t)
    ensures req.httpMethod == "PUT" && Complete(req) && req.taskId.value !in t ==> r == Outcome(NotFound, t)
    ensures r.status == Ok <==> req.httpMethod == "PUT" && Complete(req) && req.taskId.value in t
    ensures r.tasks.Keys == t.Keys
    // same column: the open range between the old and new slot slides by one towards the old slot
    ensures r.status == Ok && req.sourceColumnId == req.destinationColumnId ==>
      var x, c, d := req.taskId.value, req.sourceColumnId.value, req.destinationIndex.value;
      var p := t[x].position;
      && r.tasks[x] == t[x].(position := d, updatedAt := now)
      && forall id | id in t && id != x ::
           r.tasks[id] ==
             if t[id].column == c && p < t[id].position <= d then t[id].(position := t[id].position - 1)
             else if t[id].column == c && d <= t[id].position < p then t[id].(position := t[id].position + 1)
             else t[id]
    // other column: the source closes its gap, the destination opens a slot at d
    ensures r.status == Ok && req.sourceColumnId != req.destinationColumnId ==>
      var x, s, e, d := req.taskId.value, req.sourceColumnId.value, req.destinationColumnId.value, req.destinationIndex.value;
      var p := t[x].position;
      && r.tasks[x] == t[x].(column := e, position := d, updatedAt := now)
      && forall id | id in t && id != x ::
           r.tasks[id] ==
             if t[id].column == s && t[id].position > p then t[id].(position := t[id].position - 1)
             else if t[id].column == e && t[id].position >= d then t[id].(position := t[id].position + 1)
             else t[id]
  {
    if req.httpMethod != "PUT" then Outcome(MethodNotAllowed, t)
    else if !Complete(req) then Outcome(BadRequest, t)
    else
      var x, s, e, d := req.taskId.value, req.sourceColumnId.value, req.destinationColumnId.value, req.destinationIndex.value;
      // the current position is read by id alone; the client's source column is trusted
      if x !in t then Outcome(NotFound, t)
      else
        if s == e then Outcome(Ok, Reorder(t, x, s, d, now))
        else Outcome(Ok, Relocate(t, x, s, e, d, now))
  }

  /** The same-column branch: the rows strictly between the old and the new slot shift
      one towards the old slot, then the task takes slot `d`. */
  function Reorder(t: Table, x: Id, c: Id, d: int, now: string): (r: Table)
    requires x in t
    ensures r.Keys == t.Keys
    ensures r[x] == t[x].(position := d, updatedAt := now)
    ensures var p := t[x].position;
      forall id | id in t && id != x ::
        r[id] ==
          if t[id].column == c && p < t[id].position <= d then t[id].(position := t[id].position - 1)
          else if t[id].column == c && d <= t[id].position < p then t[id].(position := t[id].position + 1)
          else t[id]
  {
    var p := t[x].position;
    var shifted :=
      if d > p then Shift(t, c, Between(p + 1, d), -1)
      else if d < p then Shift(t, c, Between(d, p - 1), 1)
      else t;
    PlaceAt(shifted, x, d, now)
  }

  /** The cross-column branch: the source closes the gap after the old slot, the
      destination opens slot `d`, then the task takes it. */
  function Relocate(t: Table, x: Id, s: Id, e: Id, d: int, now: string): (r: Table)
    requires x in t && s != e
    ensures r.Keys == t.Keys
    ensures r[x] == t[x].(column := e, position := d, updatedAt := now)
    ensures var p := t[x].position;
      forall id | id in t && id != x ::
        r[id] ==
          if t[id].column == s && t[id].position > p then t[id].(position := t[id].position - 1)
          else if t[id].column == e && t[id].position >= d then t[id].(position := t[id].position + 1)
          else t[id]
  {
    var closed := Shift(t, s, From(t[x].position + 1), -1);
    var widened := Shift(closed, e, From(d), 1);
    PlaceIn(widened, x, e, d, now)
  }

  /** The validation of api/tasks/move.ts:12: three truthy ids and a defined index. */
  predicate Complete(req: MoveRequest) {
    && Truthy(req.taskId)
    && Truthy(req.sourceColumnId)
    && Truthy(req.destinationColumnId)
    && req.destinationIndex.Some?
  }

  /** A well-formed PUT for task `x` from `s` to `e` at index `d`. */
  function Request(x: Id, s: Id, e: Id, d: int): MoveRequest {
    MoveRequest("PUT", Some(x), Some(s), Some(e), Some(d))
  }

  /** Column `c` reads the same in `t` and `r`: same members, same rows. */
  ghost predicate ColumnUnchanged(t: Table, r: Table, c: Id) {
    && t.Keys == r.Keys
    && forall id | id in t && (t[id].column == c || r[id].column == c) :: r[id] == t[id]
  }

  /** A column nobody touched keeps its arrangements and its contiguity. */
  lemma UnchangedColumnKeepsOrder(t: Table, r: Table, c: Id)
    requires ColumnUnchanged(t, r, c)
    ensures Members(r, c) == Members(t, c)
    ensures forall ids :: Arranges(t, c, ids) <==> Arranges(r, c, ids)
    ensures Contiguous(r, c) <==> Contiguous(t, c)
  {
    assert Positions(r, c) == Positions(t, c);
  }

  /** A successful move rewrites no column other than the two it names. */
  lemma MoveTouchesNamedColumnsOnly(t: Table, req: MoveRequest, now: string, c: Id)
    requires Handle(t, req, now).status == Ok
    requires c != req.sourceColumnId.value && c != req.destinationColumnId.value
    requires req.taskId.value in t ==> t[req.taskId.value].column != c
    ensures ColumnUnchanged(t, Handle(t, req, now).tasks, c)
  {
  }

  /** Moving a task to the slot it already holds changes no task's column or position
      (only the moved task's `updated_at`). */
  lemma SameSlotKeepsEveryPlace(t: Table, x: Id, c: Id, now: string)
    requires x in t && x != "" && c != ""
    ensures var r := Handle(t, Request(x, c, c, t[x].position), now);
      && r.status == Ok
      && forall id | id in t :: r.tasks[id].column == t[id].column && r.tasks[id].position == t[id].position
  {
  }

  /** The position a row of column `c` ends up at when the task at `p` moves to `d`
      inside `c`. */
  function SlidPosition(row: TaskRow, c: Id, p: int, d: int): int {
    if row.column == c && p < row.position <= d then row.position - 1
    else if row.column == c && d <= row.position < p then row.position + 1
    else row.position
  }

  /** `r` is `t` after task `x` slid to slot `d` of column `c`: only positions change. */
  ghost predicate Slid(t: Table, r: Table, x: Id, c: Id, d: int) {
    && x in t && t.Keys == r.Keys
    && r[x].column == t[x].column && r[x].position == d
    && forall id | id in t && id != x :: r[id] == t[id].(position := SlidPosition(t[id], c, t[x].position, d))
  }

  /** `r` is `t` after task `x` left column `s` for slot `d` of column `e`. */
  ghost predicate Relocated(t: Table, r: Table, x: Id, s: Id, e: Id, d: int) {
    && x in t && t.Keys == r.Keys
    && r[x].column == e && r[x].position == d
    && forall id | id in t && id != x :: r[id] == t[id].(position := RelocatedPosition(t[id], s, e, t[x].position, d))
  }

  /** The position a row ends up at when the task at `p` of column `s` moves to slot `d`
      of column `e`. */
  function RelocatedPosition(row: TaskRow, s: Id, e: Id, p: int, d: int): int {
    if row.column == s && row.position > p then row.position - 1
    else if row.column == e && row.position >= d then row.position + 1
    else row.position
  }

  /** A successful same-column move is a slide. */
  lemma ReorderSlides(t: Table, x: Id, c: Id, d: int, now: string)
    requires x in t && x != "" && c != ""
    ensures Handle(t, Request(x, c, c, d), now).status == Ok
    ensures Slid(t, Handle(t, Request(x, c, c, d), now).tasks, x, c, d)
  {
  }

  /** A successful cross-column move is a relocation. */
  lemma RelocateRelocates(t: Table, x: Id, s: Id, e: Id, d: int, now: string)
    requires x in t && x != "" && s != "" && e != "" && s != e
    ensures Handle(t, Request(x, s, e, d), now).status == Ok
    ensures Relocated(t, Handle(t, Request(x, s, e, d), now).tasks, x, s, e, d)
  {
  }

  /** Sliding inside a column listed by `ids` lists it as splicing `x` out of `ids`
      and back in at `d` does. */
  lemma {:induction false} SlideFollowsSplice(t: Table, r: Table, c: Id, ids: seq<Id>, x: Id, d: int)
    requires Arranges(t, c, ids) && x in ids && 0 <= d < |ids|
    requires Slid(t, r, x, c, d)
    ensures 0 <= t[x].position < |ids| && ids[t[x].position] == x
    ensures Arranges(r, c, JsArray.InsertAt(JsArray.RemoveAt(ids, t[x].position), d, x))
  {
    var j :| 0 <= j < |ids| && ids[j] == x;
    assert t[x].position == j;
    SlideSplicePlaces(t, r, c, ids, x, d);
    SlideSpliceCovers(t, r, c, ids, x, d);
  }

  /** After the slide, the spliced list holds at index `k` a task of `c` at position `k`. */
  lemma SlideSplicePlaces(t: Table, r: Table, c: Id, ids: seq<Id>, x: Id, d: int)
    requires Arranges(t, c, ids) && 0 <= d < |ids|
    requires Slid(t, r, x, c, d) && 0 <= t[x].position < |ids| && ids[t[x].position] == x
    ensures var n := JsArray.InsertAt(JsArray.RemoveAt(ids, t[x].position), d, x);
      forall k | 0 <= k < |n| :: n[k] in r && r[n[k]].column == c && r[n[k]].position == k
  {
    var i := t[x].position;
    var rest := JsArray.RemoveAt(ids, i);
    var n := JsArray.InsertAt(rest, d, x);
    assert JsArray.SpliceStart(|rest|, d) == d;
    ArrangesNoDup(t, c, ids);
    forall k | 0 <= k < |n|
      ensures n[k] in r && r[n[k]].column == c && r[n[k]].position == k
    {
      if k == d {
        assert n[k] == x;
      } else if k < d {
        assert n[k] == rest[k];
        if k < i {
          assert rest[k] == ids[k];
        } else {
          assert rest[k] == ids[k + 1];
        }
      } else {
        assert n[k] == rest[k - 1];
        if k - 1 < i {
          assert rest[k - 1] == ids[k - 1];
        } else {
          assert rest[k - 1] == ids[k];
        }
      }
    }
  }

  /** After the slide, every task of `c` is in the spliced list. */
  lemma SlideSpliceCovers(t: Table, r: Table, c: Id, ids: seq<Id>, x: Id, d: int)
    requires Arranges(t, c, ids) && 0 <= d < |ids|
    requires Slid(t, r, x, c, d) && 0 <= t[x].position < |ids| && ids[t[x].position] == x
    ensures var n := JsArray.InsertAt(JsArray.RemoveAt(ids, t[x].position), d, x);
      forall id | id in r && r[id].column == c :: id in n
  {
    var n := JsArray.InsertAt(JsArray.RemoveAt(ids, t[x].position), d, x);
    JsArray.RemoveInsertPermutes(ids, t[x].position, d);
    assert multiset(n) == multiset(ids);
    forall id | id in r && r[id].column == c
      ensures id in n
    {
      assert t[id].column == c;
      assert id in ids;
      assert id in multiset(ids);
    }
  }

  /** Relocating out of a column listed by `src` lists it as `src` with `x` spliced out,
      wherever `x` lands. */
  lemma {:induction false} RelocationClosesSource(
    t: Table, r: Table, s: Id, e: Id, src: seq<Id>, x: Id, d: int)
    requires Arranges(t, s, src) && s != e && x in src
    requires Relocated(t, r, x, s, e, d)
    ensures 0 <= t[x].position < |src| && src[t[x].position] == x
    ensures Arranges(r, s, JsArray.RemoveAt(src, t[x].position))
  {
    var j :| 0 <= j < |src| && src[j] == x;
    assert t[x].position == j;
    RelocationSourcePlaces(t, r, s, e, src, x, d);
    RelocationSourceCovers(t, r, s, e, src, x, d);
  }

  /** After the relocation, the source list with `x` spliced out holds at index `k` a task
      of the source column at position `k`. */
  lemma RelocationSourcePlaces(t: Table, r: Table, s: Id, e: Id, src: seq<Id>, x: Id, d: int)
    requires Arranges(t, s, src) && s != e
    requires Relocated(t, r, x, s, e, d) && 0 <= t[x].position < |src| && src[t[x].position] == x
    ensures var rest := JsArray.RemoveAt(src, t[x].position);
      forall k | 0 <= k < |rest| :: rest[k] in r && r[rest[k]].column == s && r[rest[k]].position == k
  {
    var i := t[x].position;
    var rest := JsArray.RemoveAt(src, i);
    ArrangesNoDup(t, s, src);
    forall k | 0 <= k < |rest|
      ensures rest[k] in r && r[rest[k]].column == s && r[rest[k]].position == k
    {
      if k < i {
        assert rest[k] == src[k];
      } else {
        assert rest[k] == src[k + 1];
      }
    }
  }

  /** After the relocation, every task left in the source column is in the source list with
      `x` spliced out. */
  lemma RelocationSourceCovers(t: Table, r: Table, s: Id, e: Id, src: seq<Id>, x: Id, d: int)
    requires Arranges(t, s, src) && s != e
    requires Relocated(t, r, x, s, e, d) && 0 <= t[x].position < |src| && src[t[x].position] == x
    ensures var rest := JsArray.RemoveAt(src, t[x].position);
      forall id | id in r && r[id].column == s :: id in rest
  {
    forall id | id in r && r[id].column == s
      ensures id in JsArray.RemoveAt(src, t[x].position)
    {
      assert id != x && t[id].column == s;
      JsArray.RemoveAtKeeps(src, t[x].position, id);
    }
  }

  /** Relocating into a column listed by `dst` at an index in `[0, |dst|]` lists it as
      `dst` with `x` spliced in at `d`. */
  lemma {:induction false} RelocationOpensDestination(
    t: Table, r: Table, s: Id, e: Id, dst: seq<Id>, x: Id, d: int)
    requires Arranges(t, e, dst) && s != e && x in t && t[x].column == s
    requires 0 <= d <= |dst|
    requires Relocated(t, r, x, s, e, d)
    ensures Arranges(r, e, JsArray.InsertAt(dst, d, x))
  {
    var grown := JsArray.InsertAt(dst, d, x);
    assert JsArray.SpliceStart(|dst|, d) == d;
    forall k | 0 <= k < |grown|
      ensures grown[k] in r && r[grown[k]].column == e && r[grown[k]].position == k
    {
      if k < d {
        assert grown[k] == dst[k];
      } else if k > d {
        assert grown[k] == dst[k - 1];
      }
    }
    forall id | id in r && r[id].column == e
      ensures id in grown
    {
      if id != x {
        assert id in dst;
        var m :| 0 <= m < |dst| && dst[m] == id;
        if m < d {
          assert grown[m] == id;
        } else {
          assert grown[m + 1] == id;
        }
      }
    }
  }

  /** A slide inside a contiguous column keeps it contiguous exactly when `0 <= d < |c|`;
      it leaves every other column as it was. */
  lemma SlideKeepsOrder(t: Table, r: Table, x: Id, c: Id, d: int)
    requires Slid(t, r, x, c, d) && t[x].column == c && Contiguous(t, c)
    ensures Contiguous(r, c) <==> 0 <= d < |Members(t, c)|
    ensures forall c' | c' != c :: Contiguous(r, c') <==> Contiguous(t, c')
  {
    assert Members(r, c) == Members(t, c);
    if 0 <= d < |Members(t, c)| {
      var ids := ContiguousIsArranged(t, c);
      ArrangesMembers(t, c, ids);
      SlideFollowsSplice(t, r, c, ids, x, d);
      ArrangesIsContiguous(r, c, JsArray.InsertAt(JsArray.RemoveAt(ids, t[x].position), d, x));
    } else {
      assert d in Positions(r, c);
      assert d !in Upto(|Members(r, c)|);
    }
    forall c' | c' != c
      ensures Contiguous(r, c') <==> Contiguous(t, c')
    {
      SlideSparesOthers(t, r, x, c, d, c');
      UnchangedColumnKeepsOrder(t, r, c');
    }
  }

  /** A slide inside the task's real column writes no row of another column. */
  lemma SlideSparesOthers(t: Table, r: Table, x: Id, c: Id, d: int, c': Id)
    requires Slid(t, r, x, c, d) && t[x].column == c && c' != c
    ensures ColumnUnchanged(t, r, c')
  {
    forall id | id in t && (t[id].column == c' || r[id].column == c')
      ensures r[id] == t[id]
    {
      if id != x {
        assert SlidPosition(t[id], c, t[x].position, d) == t[id].position;
      }
    }
  }

  /** A relocation from the task's real column keeps the source contiguous whatever `d`
      is, keeps the destination contiguous exactly when `0 <= d <= |destination|`, and
      leaves every other column as it was. */
  lemma RelocationKeepsOrder(t: Table, r: Table, x: Id, s: Id, e: Id, d: int)
    requires Relocated(t, r, x, s, e, d) && t[x].column == s && s != e
    requires Contiguous(t, s) && Contiguous(t, e)
    ensures Contiguous(r, s)
    ensures Contiguous(r, e) <==> 0 <= d <= |Members(t, e)|
    ensures forall c | c != s && c != e :: Contiguous(r, c) <==> Contiguous(t, c)
  {
    RelocationKeepsSource(t, r, x, s, e, d);
    RelocationKeepsDestination(t, r, x, s, e, d);
    forall c | c != s && c != e
      ensures Contiguous(r, c) <==> Contiguous(t, c)
    {
      RelocationSparesOthers(t, r, x, s, e, d, c);
      UnchangedColumnKeepsOrder(t, r, c);
    }
  }

  /** A relocation from the task's real column writes no row of a third column. */
  lemma RelocationSparesOthers(t: Table, r: Table, x: Id, s: Id, e: Id, d: int, c: Id)
    requires Relocated(t, r, x, s, e, d) && t[x].column == s && c != s && c != e
    ensures ColumnUnchanged(t, r, c)
  {
    forall id | id in t && (t[id].column == c || r[id].column == c)
      ensures r[id] == t[id]
    {
      if id != x {
        assert RelocatedPosition(t[id], s, e, t[x].position, d) == t[id].position;
      }
    }
  }

  /** The source of a relocation from the task's real column stays contiguous. */
  lemma RelocationKeepsSource(t: Table, r: Table, x: Id, s: Id, e: Id, d: int)
    requires Relocated(t, r, x, s, e, d) && t[x].column == s && s != e
    requires Contiguous(t, s)
    ensures Contiguous(r, s)
  {
    var src := ContiguousIsArranged(t, s);
    assert x in src;
    RelocationClosesSource(t, r, s, e, src, x, d);
    ArrangesIsContiguous(r, s, JsArray.RemoveAt(src, t[x].position));
  }

  /** The destination of a relocation stays contiguous exactly for an index in
      `[0, |destination|]`. */
  lemma RelocationKeepsDestination(t: Table, r: Table, x: Id, s: Id, e: Id, d: int)
    requires Relocated(t, r, x, s, e, d) && t[x].column == s && s != e
    requires Contiguous(t, e)
    ensures Contiguous(r, e) <==> 0 <= d <= |Members(t, e)|
  {
    var dst := ContiguousIsArranged(t, e);
    ArrangesMembers(t, e, dst);
    if 0 <= d <= |dst| {
      RelocationOpensDestination(t, r, s, e, dst, x, d);
      ArrangesIsContiguous(r, e, JsArray.InsertAt(dst, d, x));
    } else {
      RelocationPastEndLeavesGap(t, r, x, s, e, d);
    }
  }

  /** A relocation to an index outside `[0, |destination|]` writes that index verbatim,
      so the destination is no longer contiguous. */
  lemma RelocationPastEndLeavesGap(t: Table, r: Table, x: Id, s: Id, e: Id, d: int)
    requires Relocated(t, r, x, s, e, d) && t[x].column == s && s != e
    requires d < 0 || d > |Members(t, e)|
    ensures !Contiguous(r, e)
  {
    assert Members(r, e) == Members(t, e) + {x};
    assert x !in Members(t, e);
    assert d in Positions(r, e);
    assert d !in Upto(|Members(r, e)|);
  }

  /** Contiguity and a same-column move: starting from a contiguous column, the column stays
      contiguous exactly when `0 <= d < |column|`; every other column keeps its state. */
  lemma ReorderKeepsOrder(t: Table, x: Id, c: Id, d: int, now: string)
    requires x in t && t[x].column == c && x != "" && c != ""
    requires Contiguous(t, c)
    ensures var r := Handle(t, Request(x, c, c, d), now).tasks;
      && (Contiguous(r, c) <==> 0 <= d < |Members(t, c)|)
      && forall c' | c' != c :: Contiguous(r, c') <==> Contiguous(t, c')
  {
    ReorderSlides(t, x, c, d, now);
    SlideKeepsOrder(t, Handle(t, Request(x, c, c, d), now).tasks, x, c, d);
  }

  /** Contiguity and a cross-column move made from the task's real column: the source stays
      contiguous whatever `d` is, the destination stays contiguous exactly when
      `0 <= d <= |destination|` (no clamping), and every other column keeps its state. */
  lemma RelocateKeepsOrder(t: Table, x: Id, s: Id, e: Id, d: int, now: string)
    requires x in t && t[x].column == s && s != e && x != "" && s != "" && e != ""
    requires Contiguous(t, s) && Contiguous(t, e)
    ensures var r := Handle(t, Request(x, s, e, d), now).tasks;
      && Contiguous(r, s)
      && (Contiguous(r, e) <==> 0 <= d <= |Members(t, e)|)
      && forall c | c != s && c != e :: Contiguous(r, c) <==> Contiguous(t, c)
  {
    RelocateRelocates(t, x, s, e, d, now);
    RelocationKeepsOrder(t, Handle(t, Request(x, s, e, d), now).tasks, x, s, e, d);
  }

  /** `r` leaves column `c` as `t` had it except for task `x`: no other row of `c` changes,
      and no other row changes column. */
  ghost predicate SparesColumnBut(t: Table, r: Table, x: Id, c: Id) {
    && x in t
    && r.Keys == t.Keys
    && forall id | id in t && id != x ::
         r[id].column == t[id].column && (t[id].column == c ==> r[id] == t[id])
  }

  /** Taking a task that was not last out of a contiguous column, and changing nothing else
      in it, leaves a gap at the old last position. */
  lemma LeavingOpensGap(t: Table, r: Table, x: Id, c: Id)
    requires SparesColumnBut(t, r, x, c) && t[x].column == c && r[x].column != c
    requires Contiguous(t, c) && t[x].position < |Members(t, c)| - 1
    ensures !Contiguous(r, c)
  {
    var n := |Members(t, c)|;
    assert t[x].position in Positions(t, c);
    assert n - 1 in Upto(n);
    var y :| y in t && t[y].column == c && t[y].position == n - 1;
    assert y != x && r[y] == t[y];
    LeavingShrinksColumn(t, r, x, c);
    assert n - 1 in Positions(r, c);
    assert n - 1 !in Upto(n - 1);
  }

  /** The column loses exactly the task that left it. */
  lemma LeavingShrinksColumn(t: Table, r: Table, x: Id, c: Id)
    requires SparesColumnBut(t, r, x, c) && t[x].column == c && r[x].column != c
    ensures Members(r, c) == Members(t, c) - {x}
    ensures |Members(r, c)| == |Members(t, c)| - 1
  {
    forall id | id in r
      ensures id in Members(r, c) <==> id in Members(t, c) - {x}
    {
    }
    assert Members(r, c) == Members(t, c) - {x};
  }

  /** Rewriting a task's position inside a contiguous column, and changing nothing else in
      it, keeps the column contiguous exactly when the position is unchanged. */
  lemma RewritingKeepsOnlySame(t: Table, r: Table, x: Id, c: Id)
    requires SparesColumnBut(t, r, x, c) && t[x].column == c && r[x].column == c
    requires Contiguous(t, c)
    ensures Contiguous(r, c) <==> r[x].position == t[x].position
  {
    if r[x].position == t[x].position {
      RewritingSameKeeps(t, r, x, c);
    } else {
      RewritingOtherBreaks(t, r, x, c);
    }
  }

  /** A column whose rows only change in fields other than column and position keeps
      its members and its positions. */
  lemma RewritingSameKeeps(t: Table, r: Table, x: Id, c: Id)
    requires SparesColumnBut(t, r, x, c) && t[x].column == c && r[x].column == c
    requires r[x].position == t[x].position && Contiguous(t, c)
    ensures Contiguous(r, c)
  {
    assert SameSlots(t, r, c);
    SameSlotsSamePositions(t, r, c);
    SameSlotsKeepContiguous(t, r, c);
  }

  /** `t` and `r` have the same ids, and the rows of column `c` are the same ones at the same
      positions in both. */
  ghost predicate SameSlots(t: Table, r: Table, c: Id) {
    && r.Keys == t.Keys
    && forall id | id in t ::
         (r[id].column == c <==> t[id].column == c) && (t[id].column == c ==> r[id].position == t[id].position)
  }

  lemma SameSlotsSamePositions(t: Table, r: Table, c: Id)
    requires SameSlots(t, r, c)
    ensures Members(r, c) == Members(t, c) && Positions(r, c) == Positions(t, c)
  {
    forall k | k in Positions(r, c) ensures k in Positions(t, c) {
      var id :| id in r && r[id].column == c && r[id].position == k;
      assert t[id].position == k;
    }
    forall k | k in Positions(t, c) ensures k in Positions(r, c) {
      var id :| id in t && t[id].column == c && t[id].position == k;
      assert r[id].position == k;
    }
  }

  lemma SameSlotsKeepContiguous(t: Table, r: Table, c: Id)
    requires SameSlots(t, r, c) && Members(r, c) == Members(t, c) && Positions(r, c) == Positions(t, c)
    requires Contiguous(t, c)
    ensures Contiguous(r, c)
  {
    forall a, b | a in Members(r, c) && b in Members(r, c) && r[a].position == r[b].position
      ensures a == b
    {
      assert t[a].position == r[a].position && t[b].position == r[b].position;
    }
  }

  /** Moving a task of a contiguous column to any other position, while no other row of the
      column changes, either repeats a used position or uses one past the end. */
  lemma RewritingOtherBreaks(t: Table, r: Table, x: Id, c: Id)
    requires SparesColumnBut(t, r, x, c) && t[x].column == c && r[x].column == c
    requires r[x].position != t[x].position && Contiguous(t, c)
    ensures !Contiguous(r, c)
  {
    StayingKeepsMembers(t, r, x, c);
    var d, n := r[x].position, |Members(t, c)|;
    if 0 <= d < n {
      assert d in Upto(n);
      assert d in Positions(t, c);
      var y :| y in t && t[y].column == c && t[y].position == d;
      assert y != x && r[y] == t[y];
      assert y in Members(r, c) && x in Members(r, c);
    } else {
      assert d in Positions(r, c);
      assert d !in Upto(n);
    }
  }

  /** A task that stays in its column leaves the column's members as they were. */
  lemma StayingKeepsMembers(t: Table, r: Table, x: Id, c: Id)
    requires SparesColumnBut(t, r, x, c) && t[x].column == c && r[x].column == c
    ensures Members(r, c) == Members(t, c)
  {
    forall id | id in r
      ensures id in Members(r, c) <==> id in Members(t, c)
    {
    }
  }

  /** A request whose source and destination both differ from column `c` writes no row of
      `c` other than the task's own, and moves no other row into or out of any column. */
  lemma MisnamedMoveSparesColumn(t: Table, x: Id, c: Id, s: Id, e: Id, d: int, now: string)
    requires x in t && c != s && c != e && x != "" && s != "" && e != ""
    ensures var r := Handle(t, Request(x, s, e, d), now).tasks;
      && SparesColumnBut(t, r, x, c)
      && r[x].column == (if s == e then t[x].column else e)
      && r[x].position == d
  {
  }

  /** The handler trusts the client's `sourceColumnId`. This lemma covers a cross-column
      request whose source and destination both differ from the task's real column `c`:
      the task leaves `c` without its gap being closed, so a contiguous `c` in which the
      task was not last stops being contiguous. `MisnamedSlideKeepsColumn` covers a
      same-column request naming another column; a request whose destination is `c`
      itself is not covered. */
  lemma MisnamedSourceLeavesGap(t: Table, x: Id, c: Id, s: Id, e: Id, d: int, now: string)
    requires x in t && t[x].column == c && c != s && c != e && s != e
    requires x != "" && s != "" && e != ""
    requires Contiguous(t, c) && t[x].position < |Members(t, c)| - 1
    ensures !Contiguous(Handle(t, Request(x, s, e, d), now).tasks, c)
  {
    MisnamedMoveSparesColumn(t, x, c, s, e, d, now);
    LeavingOpensGap(t, Handle(t, Request(x, s, e, d), now).tasks, x, c);
  }

  /** A same-column request naming a column `s` other than the task's real column `c`
      shifts rows of `s` only, then writes `d` into the task, which stays in `c`: a
      contiguous `c` stays contiguous exactly when `d` is the position the task already
      had. */
  lemma MisnamedSlideKeepsColumn(t: Table, x: Id, c: Id, s: Id, d: int, now: string)
    requires x in t && t[x].column == c && c != s && x != "" && s != ""
    requires Contiguous(t, c)
    ensures Contiguous(Handle(t, Request(x, s, s, d), now).tasks, c) <==> d == t[x].position
  {
    MisnamedMoveSparesColumn(t, x, c, s, s, d, now);
    RewritingKeepsOnlySame(t, Handle(t, Request(x, s, s, d), now).tasks, x, c);
  }
}

=== FILE: projection.dfy ===
/** The client's board state: tasks by id, columns by id each holding its ordered task
    ids, and the display order of the columns. */
module Projection {
  import opened Common

  /** A task as the client holds it. */
  datatype Task = Task(
    id: Id,
    title: string,
    description: string,
    priority: string,
    columnId: Id,
    tags: seq<string>,
    createdAt: string,
    updatedAt: string)

  /** A column and the ids of its tasks, top to bottom. */
  datatype Column = Column(id: Id, title: string, taskIds: seq<Id>)

  datatype BoardState = BoardState(
    tasks: map<Id, Task>,
    columns: map<Id, Column>,
    columnOrder: seq<Id>)

  /** The task record JavaScript builds from `{ ...undefined, columnId, updatedAt }`
      when a listed id has no entry in `tasks`: every other field is missing, which the
      model writes as empty. */
  function Fragment(columnId: Id, updatedAt: string): Task {
    Task("", "", "", "", columnId, [], "", updatedAt)
  }
}

=== FILE: store.dfy ===
/** The server's `tasks`, `columns`, `tags` and `task_tags` tables, and the ordering
    discipline every column is meant to keep: the positions of the tasks in a column
    are exactly 0, 1, ..., n-1, each used once. */
module Store {
  import opened Common

  /** The three values the `priority` CHECK constraint admits (api/init.ts:25). */
  predicate ValidPriority(p: string) {
    p == "low" || p == "medium" || p == "high"
  }

  /** One row of `tasks`, keyed by its id. `description` may be NULL. */
  datatype TaskRow = TaskRow(
    title: string,
    description: Option<string>,
    priority: string,
    column: Id,
    position: int,
    createdAt: string,
    updatedAt: string)

  /** The `tasks` table. */
  type Table = map<Id, TaskRow>

  /** One row of `columns`. */
  datatype ColumnRow = ColumnRow(title: string, position: int)

  /** All four tables. `tagSerial` is the next value the `tags.id` SERIAL sequence hands out. */
  datatype Db = Db(
    columns: map<Id, ColumnRow>,
    tasks: Table,
    tags: map<string, int>,
    tagSerial: int,
    links: set<(Id, int)>)

  /** The ids of the tasks whose `column_id` is `c`. */
  function Members(t: Table, c: Id): set<Id> {
    set id | id in t && t[id].column == c
  }

  /** The positions used in column `c`. */
  function Positions(t: Table, c: Id): set<int> {
    set id | id in t && t[id].column == c :: t[id].position
  }

  /** The integers 0, 1, ..., n-1. */
  function Upto(n: nat): (r: set<int>)
    ensures forall k :: k in r <==> 0 <= k < n
  {
    if n == 0 then {} else Upto(n - 1) + {n - 1}
  }

  /** The contiguity invariant for column `c`: no position is used twice, and the positions used are
      exactly 0 .. |c|-1. */
  ghost predicate Contiguous(t: Table, c: Id) {
    && (forall a, b | a in Members(t, c) && b in Members(t, c) && t[a].position == t[b].position :: a == b)
    && Positions(t, c) == Upto(|Members(t, c)|)
  }

  /** Every column of the table is contiguous. */
  ghost predicate AllContiguous(t: Table) {
    forall c :: Contiguous(t, c)
  }

  /** `ids` lists column `c` in position order: the task at index k has position k,
      and every task of `c` is listed. */
  ghost predicate Arranges(t: Table, c: Id, ids: seq<Id>) {
    && (forall i | 0 <= i < |ids| :: ids[i] in t && t[ids[i]].column == c && t[ids[i]].position == i)
    && (forall id | id in t && t[id].column == c :: id in ids)
  }

  /** An arrangement never lists a task twice. */
  lemma ArrangesNoDup(t: Table, c: Id, ids: seq<Id>)
    requires Arranges(t, c, ids)
    ensures NoDup(ids)
  {
  }

  /** An arrangement lists exactly the column's members. */
  lemma ArrangesMembers(t: Table, c: Id, ids: seq<Id>)
    requires Arranges(t, c, ids)
    ensures Elements(ids) == Members(t, c)
    ensures |Members(t, c)| == |ids|
  {
    ArrangesNoDup(t, c, ids);
    NoDupCard(ids);
  }

  /** A column that can be listed in position order is contiguous. */
  lemma ArrangesIsContiguous(t: Table, c: Id, ids: seq<Id>)
    requires Arranges(t, c, ids)
    ensures Contiguous(t, c)
  {
    ArrangesMembers(t, c, ids);
    assert Members(t, c) == Elements(ids);
    forall k | k in Positions(t, c)
      ensures k in Upto(|ids|)
    {
      var id :| id in t && t[id].column == c && t[id].position == k;
      assert id in ids;
    }
    forall k | k in Upto(|ids|)
      ensures k in Positions(t, c)
    {
      assert ids[k] in t && t[ids[k]].column == c;
    }
  }

  /** The first `k` tasks of a contiguous column, in position order. */
  ghost function Prefix(t: Table, c: Id, k: nat): (ids: seq<Id>)
    requires Contiguous(t, c) && k <= |Members(t, c)|
    ensures |ids| == k
    ensures forall i | 0 <= i < k :: ids[i] in t && t[ids[i]].column == c && t[ids[i]].position == i
  {
    if k == 0 then []
    else
      var front := Prefix(t, c, k - 1);
      assert k - 1 in Upto(|Members(t, c)|);
      var id :| id in t && t[id].column == c && t[id].position == k - 1;
      front + [id]
  }

  /** A contiguous column can be listed in position order. */
  lemma ContiguousIsArranged(t: Table, c: Id) returns (ids: seq<Id>)
    requires Contiguous(t, c)
    ensures Arranges(t, c, ids)
  {
    ids := Prefix(t, c, |Members(t, c)|);
    forall id | id in t && t[id].column == c
      ensures id in ids
    {
      var k := t[id].position;
      assert k in Positions(t, c);
      assert k in Upto(|Members(t, c)|);
      assert ids[k] in Members(t, c) && id in Members(t, c);
    }
  }

  /** A column is contiguous exactly when the column can be listed in position order. */
  lemma ContiguousIffArranged(t: Table, c: Id)
    ensures Contiguous(t, c) <==> exists ids :: Arranges(t, c, ids)
  {
    if Contiguous(t, c) {
      var ids := ContiguousIsArranged(t, c);
    }
    if ids :| Arranges(t, c, ids) {
      ArrangesIsContiguous(t, c, ids);
    }
  }

  /** The position order of a column is unique. */
  lemma ArrangementUnique(t: Table, c: Id, a: seq<Id>, b: seq<Id>)
    requires Arranges(t, c, a) && Arranges(t, c, b)
    ensures a == b
  {
    ArrangesMembers(t, c, a);
    ArrangesMembers(t, c, b);
    forall i | 0 <= i < |a|
      ensures a[i] == b[i]
    {
      assert a[i] in b;
      var j :| 0 <= j < |b| && b[j] == a[i];
    }
  }
}

=== FILE: task_modal.dfy ===
/** The task form (src/components/TaskModal.tsx): reading the submitted fields, splitting
    the comma-separated tag text, and the text the tag field starts with. */
module TaskModal {
  import opened Common
  import opened Projection

  /** The characters `String.prototype.trim` removes: the ECMAScript WhiteSpace and
      LineTerminator code points (section 12.2 and 12.3 of ECMA-262). */
  predicate Ws(ch: char) {
    || ('\t' <= ch <= '\r') || ch == ' ' || ch == '\U{00A0}' || ch == '\U{1680}'
    || ('\U{2000}' <= ch <= '\U{200A}') || ('\U{2028}' <= ch <= '\U{2029}')
    || ch == '\U{202F}' || ch == '\U{205F}' || ch == '\U{3000}' || ch == '\U{FEFF}'
  }

  /** Neither end of `s` is whitespace. */
  predicate Trimmed(s: string) {
    s == [] || (!Ws(s[0]) && !Ws(s[|s| - 1]))
  }

  /** The first index from `i` on that does not hold whitespace, or `|s|`. */
  function SkipForward(s: string, i: nat): (r: nat)
    requires i <= |s|
    ensures i <= r <= |s|
    ensures r < |s| ==> !Ws(s[r])
    decreases |s| - i
  {
    if i < |s| && Ws(s[i]) then SkipForward(s, i + 1) else i
  }

  /** The index after the last character in `[lo, j)` that is not whitespace, or `lo`. */
  function SkipBackward(s: string, lo: nat, j: nat): (r: nat)
    requires lo <= j <= |s|
    ensures lo <= r <= j
    ensures r > lo ==> !Ws(s[r - 1])
  {
    if j > lo && Ws(s[j - 1]) then SkipBackward(s, lo, j - 1) else j
  }

  /** `s.trim()`: `s` without its leading and its trailing whitespace. */
  function Trim(s: string): (r: string)
    ensures Trimmed(r)
  {
    var i := SkipForward(s, 0);
    s[i..SkipBackward(s, i, |s|)]
  }

  /** What `SkipForward` passes over is whitespace. */
  lemma {:induction false} SkipForwardSpaces(s: string, i: nat)
    requires i <= |s|
    ensures forall k | i <= k < SkipForward(s, i) :: Ws(s[k])
    decreases |s| - i
  {
    if i < |s| && Ws(s[i]) {
      SkipForwardSpaces(s, i + 1);
    }
  }

  /** What `SkipBackward` passes over is whitespace. */
  lemma {:induction false} SkipBackwardSpaces(s: string, lo: nat, j: nat)
    requires lo <= j <= |s|
    ensures forall k | SkipBackward(s, lo, j) <= k < j :: Ws(s[k])
  {
    if j > lo && Ws(s[j - 1]) {
      SkipBackwardSpaces(s, lo, j - 1);
    }
  }

  /** The characters before `i` and from `j` on are whitespace. */
  predicate Margins(s: string, i: int, j: int)
    requires 0 <= i <= j <= |s|
  {
    && (forall k | 0 <= k < i :: Ws(s[k]))
    && (forall k | j <= k < |s| :: Ws(s[k]))
  }

  /** `s.trim()` is the middle of `s` between its leading and its trailing whitespace. */
  lemma TrimIsMiddle(s: string) returns (i: int, j: int)
    ensures 0 <= i <= j <= |s| && Trim(s) == s[i..j] && Margins(s, i, j)
  {
    i := SkipForward(s, 0);
    j := SkipBackward(s, i, |s|);
    SkipForwardSpaces(s, 0);
    SkipBackwardSpaces(s, i, |s|);
  }

  /** Trimming a string that is already trimmed changes nothing. */
  lemma TrimTrimmed(s: string)
    requires Trimmed(s)
    ensures Trim(s) == s
  {
    assert SkipForward(s, 0) == 0;
    assert SkipBackward(s, 0, |s|) == |s|;
    assert s[0..|s|] == s;
  }

  /** Trimming twice is trimming once. */
  lemma TrimIdempotent(s: string)
    ensures Trim(Trim(s)) == Trim(s)
  {
    TrimTrimmed(Trim(s));
  }

  /** Skipping forward in `[ch] + s` is skipping forward in `s`, one index later. */
  lemma {:induction false} SkipForwardShift(ch: char, s: string, i: nat)
    requires i <= |s|
    ensures SkipForward([ch] + s, i + 1) == SkipForward(s, i) + 1
    decreases |s| - i
  {
    assert ([ch] + s)[i + 1..] == s[i..];
    if i < |s| {
      assert ([ch] + s)[i + 1] == s[i];
      if Ws(s[i]) {
        SkipForwardShift(ch, s, i + 1);
      }
    }
  }

  /** Skipping backward in `[ch] + s` above index 0 is skipping backward in `s`, one
      index later. */
  lemma {:induction false} SkipBackwardShift(ch: char, s: string, lo: nat, j: nat)
    requires lo <= j <= |s|
    ensures SkipBackward([ch] + s, lo + 1, j + 1) == SkipBackward(s, lo, j) + 1
  {
    if j > lo {
      assert ([ch] + s)[j] == s[j - 1];
      if Ws(s[j - 1]) {
        SkipBackwardShift(ch, s, lo, j - 1);
      }
    }
  }

  /** A whitespace character in front does not change the trimmed text. */
  lemma TrimSkipsLeadingSpace(ch: char, s: string)
    requires Ws(ch)
    ensures Trim([ch] + s) == Trim(s)
  {
    SkipForwardPastSpace(ch, s);
    TrimPastFront(ch, s);
  }

  /** When the forward skip passes over the character in front, trimming ignores it. */
  lemma TrimPastFront(ch: char, s: string)
    requires SkipForward([ch] + s, 0) == SkipForward(s, 0) + 1
    ensures Trim([ch] + s) == Trim(s)
  {
    var t := [ch] + s;
    var i := SkipForward(s, 0);
    var j := SkipBackward(s, i, |s|);
    assert |t| == |s| + 1;
    SkipBackwardShift(ch, s, i, |s|);
    TrimBetween(t, i + 1, j + 1);
    TrimBetween(s, i, j);
    ConsSlice(ch, s, i, j);
  }

  /** A whitespace character in front is skipped, and the skip goes on into the rest. */
  lemma SkipForwardPastSpace(ch: char, s: string)
    requires Ws(ch)
    ensures SkipForward([ch] + s, 0) == SkipForward(s, 0) + 1
  {
    SkipForwardShift(ch, s, 0);
    assert ([ch] + s)[0] == ch;
  }

  /** `Trim` cuts at the two indices the skips find. */
  lemma TrimBetween(s: string, i: nat, j: nat)
    requires i == SkipForward(s, 0) && j == SkipBackward(s, i, |s|)
    ensures Trim(s) == s[i..j]
  {
  }

  /** Slicing behind an element put in front is slicing the rest one index earlier. */
  lemma ConsSlice<T>(x: T, s: seq<T>, i: int, j: int)
    requires 0 <= i <= j <= |s|
    ensures ([x] + s)[i + 1..j + 1] == s[i..j]
  {
  }

  /** `s.split(',')`: the pieces between commas, in order; an empty string gives one
      empty piece. */
  function Split(s: string): (r: seq<string>)
    ensures |r| >= 1
    ensures forall k | 0 <= k < |r| :: ',' !in r[k]
  {
    if |s| == 0 then [""]
    else
      var rest := Split(s[1..]);
      if s[0] == ',' then [""] + rest
      else [[s[0]] + rest[0]] + rest[1..]
  }

  /** `pieces.join(sep)`. */
  function Join(pieces: seq<string>, sep: string): string {
    if |pieces| == 0 then ""
    else if |pieces| == 1 then pieces[0]
    else pieces[0] + sep + Join(pieces[1..], sep)
  }

  /** Joining the pieces with commas gives back the text that was split. */
  lemma {:induction false} JoinSplit(s: string)
    ensures Join(Split(s), ",") == s
  {
    if |s| > 0 {
      var rest := Split(s[1..]);
      JoinSplit(s[1..]);
      if s[0] == ',' {
        assert s == [','] + s[1..];
      } else {
        var r := Split(s);
        if |rest| == 1 {
          assert r == [[s[0]] + rest[0]];
        } else {
          assert r[1..] == rest[1..];
          assert Join(rest, ",") == rest[0] + "," + Join(rest[1..], ",");
          assert s == [s[0]] + s[1..];
        }
      }
    }
  }

  /** Splitting `[ch] + s`: a comma starts a new empty piece in front, any other character
      joins the front of the first piece. */
  lemma SplitCons(ch: char, s: string)
    ensures Split([ch] + s) ==
      if ch == ',' then [""] + Split(s) else [[ch] + Split(s)[0]] + Split(s)[1..]
  {
    assert ([ch] + s)[0] == ch && ([ch] + s)[1..] == s;
  }

  /** Putting one character in front of two texts keeps a common tail of their pieces. */
  lemma SplitConsKeepsTail(ch: char, s: string, t: string, back: seq<string>)
    requires Split(t) == Split(s) + back
    ensures Split([ch] + t) == Split([ch] + s) + back
  {
    SplitCons(ch, t);
    SplitCons(ch, s);
    var front := Split(s);
    if ch == ',' {
      ConsAppend("", front, back);
    } else {
      HeadTailAppend(front, back);
      ConsAppend([ch] + front[0], front[1..], back);
    }
  }

  /** The head and the tail of a concatenation whose left part is not empty. */
  lemma HeadTailAppend<T>(front: seq<T>, back: seq<T>)
    requires |front| >= 1
    ensures (front + back)[0] == front[0] && (front + back)[1..] == front[1..] + back
  {
  }

  /** Concatenation regroups around an element put in front. */
  lemma ConsAppend<T>(x: T, front: seq<T>, back: seq<T>)
    ensures [x] + (front + back) == ([x] + front) + back
  {
  }

  /** A comma splits the text into the pieces of either side. */
  lemma {:induction false} SplitAtComma(a: string, b: string)
    ensures Split(a + [','] + b) == Split(a) + Split(b)
  {
    if |a| == 0 {
      assert a + [','] + b == [','] + b;
      SplitCons(',', b);
    } else {
      var rest := a[1..] + [','] + b;
      SplitAtComma(a[1..], b);
      SplitConsKeepsTail(a[0], a[1..], rest, Split(b));
      assert [a[0]] + rest == a + [','] + b;
      assert [a[0]] + a[1..] == a;
    }
  }

  /** A text without commas is a single piece. */
  lemma {:induction false} SplitNoComma(s: string)
    requires ',' !in s
    ensures Split(s) == [s]
  {
    if |s| > 0 {
      SplitNoComma(s[1..]);
      assert s == [s[0]] + s[1..];
    }
  }

  /** `.map((tag) => tag.trim()).filter((tag) => tag.length > 0)`. */
  function Compact(pieces: seq<string>): (r: seq<string>)
    ensures |r| <= |pieces|
    ensures forall k | 0 <= k < |r| :: r[k] != "" && Trimmed(r[k])
  {
    if |pieces| == 0 then []
    else
      var t := Trim(pieces[0]);
      (if t == "" then [] else [t]) + Compact(pieces[1..])
  }

  /** Compacting works piece by piece, so it keeps the order of the pieces. */
  lemma {:induction false} CompactAppend(a: seq<string>, b: seq<string>)
    ensures Compact(a + b) == Compact(a) + Compact(b)
  {
    if |a| > 0 {
      var head, tail := a[0], a[1..];
      assert a == [head] + tail;
      assert a + b == [head] + (tail + b);
      var kept := if Trim(head) == "" then [] else [Trim(head)];
      CompactCons(head, tail + b);
      CompactCons(head, tail);
      CompactAppend(tail, b);
      assert Compact(a + b) == kept + (Compact(tail) + Compact(b));
      assert kept + (Compact(tail) + Compact(b)) == (kept + Compact(tail)) + Compact(b);
    } else {
      assert a + b == b;
    }
  }

  /** Compacting a list with a first piece keeps that piece, trimmed, unless it trims to
      nothing. */
  lemma CompactCons(piece: string, rest: seq<string>)
    ensures Compact([piece] + rest) == (if Trim(piece) == "" then [] else [Trim(piece)]) + Compact(rest)
  {
    assert ([piece] + rest)[0] == piece && ([piece] + rest)[1..] == rest;
  }

  /** The tags typed into the form: split on commas, each piece trimmed, empty pieces
      dropped. */
  function ParseTags(input: string): (r: seq<string>)
    ensures forall k | 0 <= k < |r| :: r[k] != "" && Trimmed(r[k])
  {
    Compact(Split(input))
  }

  /** Parsing is a homomorphism over commas: the tags of `a,b` are those of `a` followed
      by those of `b`, in order and with repeats kept. */
  lemma ParseTagsAtComma(a: string, b: string)
    ensures ParseTags(a + [','] + b) == ParseTags(a) + ParseTags(b)
  {
    SplitAtComma(a, b);
    CompactAppend(Split(a), Split(b));
  }

  /** Leading whitespace does not change the parsed tags. */
  lemma ParseTagsSkipsLeadingSpace(ch: char, s: string)
    requires Ws(ch)
    ensures ParseTags([ch] + s) == ParseTags(s)
  {
    var rest := Split(s);
    assert ([ch] + s)[1..] == s;
    assert Split([ch] + s) == [[ch] + rest[0]] + rest[1..];
    assert Split(s) == [rest[0]] + rest[1..];
    TrimSkipsLeadingSpace(ch, rest[0]);
    CompactAppend([[ch] + rest[0]], rest[1..]);
    CompactAppend([rest[0]], rest[1..]);
  }

  /** Tags that are non-empty, trimmed and comma-free survive the round trip through the
      tag field: parsing `tags.join(', ')` gives `tags` back. */
  lemma {:induction false} ParseJoinedTags(tags: seq<string>)
    requires forall k | 0 <= k < |tags| :: tags[k] != "" && Trimmed(tags[k]) && ',' !in tags[k]
    ensures ParseTags(Join(tags, ", ")) == tags
  {
    if |tags| == 0 {
      EmptyFieldNoTags();
    } else if |tags| == 1 {
      assert Join(tags, ", ") == tags[0];
      ParseOneTag(tags[0]);
    } else {
      ParseJoinedTags(tags[1..]);
      ParseJoinedStep(tags);
    }
  }

  /** The step of `ParseJoinedTags`: the first tag, then the tags after it. */
  lemma ParseJoinedStep(tags: seq<string>)
    requires |tags| > 1 && tags[0] != "" && Trimmed(tags[0]) && ',' !in tags[0]
    requires ParseTags(Join(tags[1..], ", ")) == tags[1..]
    ensures ParseTags(Join(tags, ", ")) == tags
  {
    var rest := tags[1..];
    var joined := Join(rest, ", ");
    assert Join(tags, ", ") == tags[0] + ", " + joined;
    ParseTagThenRest(tags[0], joined);
    assert tags == [tags[0]] + rest;
  }

  /** A single tag that is non-empty, trimmed and comma-free parses to itself. */
  lemma ParseOneTag(tag: string)
    requires tag != "" && Trimmed(tag) && ',' !in tag
    ensures ParseTags(tag) == [tag]
  {
    SplitNoComma(tag);
    TrimTrimmed(tag);
  }

  /** `tag, rest` parses to `tag` followed by the tags of `rest`. */
  lemma ParseTagThenRest(tag: string, rest: string)
    requires tag != "" && Trimmed(tag) && ',' !in tag
    ensures ParseTags(tag + ", " + rest) == [tag] + ParseTags(rest)
  {
    assert tag + ", " + rest == tag + [','] + ([' '] + rest);
    ParseTagsAtComma(tag, [' '] + rest);
    ParseTagsSkipsLeadingSpace(' ', rest);
    ParseOneTag(tag);
  }

  /** The tag field's initial text: the task's tags joined by `', '`, or empty for a new task. */
  function DefaultTags(task: Option<Task>): string {
    match task
    case Some(t) => Join(t.tags, ", ")
    case None => ""
  }

  /** Opening the form on a task and submitting the tag field untouched gives the task's
      tags back, when they are non-empty, trimmed and comma-free. */
  lemma DefaultTagsRoundTrip(task: Task)
    requires forall k | 0 <= k < |task.tags| :: task.tags[k] != "" && Trimmed(task.tags[k]) && ',' !in task.tags[k]
    ensures ParseTags(DefaultTags(Some(task))) == task.tags
  {
    ParseJoinedTags(task.tags);
  }

  /** An empty tag field gives no tags. */
  lemma EmptyFieldNoTags()
    ensures ParseTags("") == []
  {
    assert Split("") == [""];
    assert Trim("") == "";
  }

  /** The submitted form fields; `None` is a field `FormData.get` returns `null` for. */
  datatype FormData = FormData(
    title: Option<string>,
    description: Option<string>,
    priority: Option<string>,
    tags: Option<string>)

  /** What `onSave` receives. */
  datatype TaskData = TaskData(title: string, description: string, priority: string, tags: seq<string>)

  /** The effect of a submission: nothing, or `onSave` with the data followed by `onClose`. */
  datatype Submission = Ignored | SaveThenClose(data: TaskData)

  /** `handleSubmit`: a submission whose title is blank after trimming does nothing;
      otherwise the trimmed title and description, the priority (default `'medium'`) and
      the parsed tags go to `onSave`, and the form is closed. */
  function HandleSubmit(form: FormData): (r: Submission)
    ensures r.Ignored? <==> Trim(Or(form.title, "")) == ""
    ensures r.SaveThenClose? ==> r.data.title == Trim(Or(form.title, ""))
    ensures r.SaveThenClose? ==> r.data.description == Trim(Or(form.description, ""))
    ensures r.SaveThenClose? ==> r.data.tags == ParseTags(Or(form.tags, ""))
  {
    var title := Trim(Or(form.title, ""));
    if title == "" then Ignored
    else SaveThenClose(TaskData(title, Trim(Or(form.description, "")), Or(form.priority, "medium"), ParseTags(Or(form.tags, ""))))
  }

  /** A saved submission carries the submitted title and description with their
      surrounding whitespace removed; the title is not empty. */
  lemma SubmittedText(form: FormData)
    requires HandleSubmit(form).SaveThenClose?
    ensures var d := HandleSubmit(form).data;
      && d.title == Trim(Or(form.title, "")) && d.title != "" && Trimmed(d.title)
      && d.description == Trim(Or(form.description, "")) && Trimmed(d.description)
  {
  }

  /** A saved submission carries the submitted priority, or `'medium'` when it is
      missing or empty. */
  lemma SubmittedPriority(form: FormData)
    requires HandleSubmit(form).SaveThenClose?
    ensures var d := HandleSubmit(form).data;
      && (Truthy(form.priority) ==> d.priority == form.priority.value)
      && (!Truthy(form.priority) ==> d.priority == "medium")
  {
  }

  /** A saved submission carries non-empty trimmed tags, and none when the tag field is
      missing or empty. */
  lemma SubmittedTags(form: FormData)
    requires HandleSubmit(form).SaveThenClose?
    ensures var d := HandleSubmit(form).data;
      && (forall k | 0 <= k < |d.tags| :: d.tags[k] != "" && Trimmed(d.tags[k]))
      && (!Truthy(form.tags) ==> d.tags == [])
  {
    var d := HandleSubmit(form).data;
    assert d.tags == ParseTags(Or(form.tags, ""));
    if !Truthy(form.tags) {
      assert Or(form.tags, "") == "";
      EmptyFieldNoTags();
    }
  }
}

=== FILE: use_board.dfy ===
/** The client's board hook (src/hooks/useBoard.ts): optimistic state updates for
    move, add, update and delete, and reconciliation by refetching the board.
    Network answers are parameters: `Option` values for responses, `bool` for success. */
module UseBoard {
  import opened Common
  import opened Projection
  import opened JsArray

  /** The hook's state: the board and the error message shown above it. */
  datatype Hook = Hook(board: BoardState, error: Option<string>)

  /** `fetchBoard`: a fetched board replaces the state wholesale and clears the error;
      on failure the saved board (if any) is loaded, otherwise the current one stays. */
  function FetchBoard(h: Hook, fetched: Option<BoardState>, saved: Option<BoardState>): (r: Hook)
    ensures fetched.Some? ==> r == Hook(fetched.value, None)
    ensures fetched.None? && saved.Some? ==> r.board == saved.value
    ensures fetched.None? && saved.None? ==> r.board == h.board
    ensures fetched.None? ==> r.error == Some("Failed to load board data")
  {
    match fetched
    case Some(b) => Hook(b, None)
    case None => Hook(saved.GetOr(h.board), Some("Failed to load board data"))
  }

  /** The optimistic update of `moveTask` (the `setBoardState` updater). `None` means the
      updater throws: the source column, or a distinct destination column, is undefined. */
  function MoveTask(prev: BoardState, x: Id, s: Id, e: Id, d: int, now: string): (r: Option<BoardState>)
    ensures r.None? <==> s !in prev.columns || (s != e && e !in prev.columns)
    ensures r.Some? && x !in prev.columns[s].taskIds ==> r.value == prev
    ensures r.Some? && x in prev.columns[s].taskIds ==> MovedOnly(prev, r.value, x, s, e, now)
  {
    if s !in prev.columns || (s != e && e !in prev.columns) then None
    else
      var source := prev.columns[s];
      var i := IndexOf(source.taskIds, x);
      if i == -1 then Some(prev)
      else if s == e then Some(MoveWithin(prev, x, s, i, d, now))
      else Some(MoveAcross(prev, x, s, e, i, d, now))
  }

  /** `b` is `prev` after task `x` moved from column `s` to column `e` at time `now`: only
      the two columns' lists and the task's entry change, and the entry (a bare fragment
      when the client did not know the task) now names `e` and `now`. */
  ghost predicate MovedOnly(prev: BoardState, b: BoardState, x: Id, s: Id, e: Id, now: string) {
    && s in prev.columns && e in prev.columns
    && b.columnOrder == prev.columnOrder
    && b.columns.Keys == prev.columns.Keys
    && (forall c | c in prev.columns && c != s && c != e :: b.columns[c] == prev.columns[c])
    && b.columns[s].id == prev.columns[s].id && b.columns[s].title == prev.columns[s].title
    && b.columns[e].id == prev.columns[e].id && b.columns[e].title == prev.columns[e].title
    && b.tasks.Keys == prev.tasks.Keys + {x}
    && (forall id | id in prev.tasks && id != x :: b.tasks[id] == prev.tasks[id])
    && b.tasks[x].columnId == e && b.tasks[x].updatedAt == now
    && (x in prev.tasks ==> b.tasks[x] == prev.tasks[x].(columnId := e, updatedAt := now))
  }

  /** The moved task's new entry. */
  function MovedEntry(prev: BoardState, x: Id, e: Id, now: string): Task {
    if x in prev.tasks then prev.tasks[x].(columnId := e, updatedAt := now) else Fragment(e, now)
  }

  /** The branch of `moveTask` for a move inside column `c` of the task found at index `i`. */
  function MoveWithin(prev: BoardState, x: Id, c: Id, i: int, d: int, now: string): (b: BoardState)
    requires c in prev.columns && 0 <= i < |prev.columns[c].taskIds|
    ensures MovedOnly(prev, b, x, c, c, now)
  {
    var source := prev.columns[c];
    prev.(tasks := prev.tasks[x := MovedEntry(prev, x, c, now)],
          columns := prev.columns[c := source.(taskIds := InsertAt(RemoveAt(source.taskIds, i), d, x))])
  }

  /** The branch of `moveTask` for a move from column `s` to column `e` of the task found
      at index `i` of `s`. */
  function MoveAcross(prev: BoardState, x: Id, s: Id, e: Id, i: int, d: int, now: string): (b: BoardState)
    requires s in prev.columns && e in prev.columns && s != e && 0 <= i < |prev.columns[s].taskIds|
    ensures MovedOnly(prev, b, x, s, e, now)
  {
    var source, dest := prev.columns[s], prev.columns[e];
    prev.(tasks := prev.tasks[x := MovedEntry(prev, x, e, now)],
          columns := prev.columns[s := source.(taskIds := RemoveAt(source.taskIds, i))]
                                 [e := dest.(taskIds := InsertAt(dest.taskIds, d, x))])
  }

  /** A same-column move keeps the column's ids as a multiset (so also its length). */
  lemma MoveWithinPermutes(prev: BoardState, x: Id, c: Id, d: int, now: string)
    requires c in prev.columns && x in prev.columns[c].taskIds
    ensures var r := MoveTask(prev, x, c, c, d, now);
      && r.Some?
      && multiset(r.value.columns[c].taskIds) == multiset(prev.columns[c].taskIds)
      && |r.value.columns[c].taskIds| == |prev.columns[c].taskIds|
  {
    var ids := prev.columns[c].taskIds;
    var i := IndexOf(ids, x);
    RemoveInsertPermutes(ids, i, d);
    assert MoveTask(prev, x, c, c, d, now).value.columns[c].taskIds == InsertAt(RemoveAt(ids, i), d, x);
  }

  /** Moving a task to the index it already has leaves its column's list as it was. */
  lemma MoveWithinToOwnIndex(prev: BoardState, x: Id, c: Id, now: string)
    requires c in prev.columns && x in prev.columns[c].taskIds
    ensures var r := MoveTask(prev, x, c, c, IndexOf(prev.columns[c].taskIds, x), now);
      r.Some? && r.value.columns == prev.columns
  {
    var ids := prev.columns[c].taskIds;
    var i := IndexOf(ids, x);
    RemoveInsertSameIndex(ids, i);
    var source := prev.columns[c];
    assert source.(taskIds := InsertAt(RemoveAt(ids, i), i, x)) == source;
    assert prev.columns[c := source] == prev.columns;
  }

  /** A cross-column move takes the first occurrence of `x` out of the source, keeping the
      other ids in order, and puts `x` into the destination at the clamped index, keeping
      the destination's ids in order around it. */
  lemma MoveAcrossSplices(prev: BoardState, x: Id, s: Id, e: Id, d: int, now: string)
    requires s in prev.columns && e in prev.columns && s != e
    requires x in prev.columns[s].taskIds
    ensures var r := MoveTask(prev, x, s, e, d, now);
      var src, dst := prev.columns[s].taskIds, prev.columns[e].taskIds;
      var k := SpliceStart(|dst|, d);
      && r.Some?
      && (exists i | 0 <= i < |src| :: src[i] == x && x !in src[..i] && r.value.columns[s].taskIds == src[..i] + src[i + 1..])
      && r.value.columns[e].taskIds == dst[..k] + [x] + dst[k..]
      && (0 <= d <= |dst| ==> k == d)
      && (d > |dst| ==> k == |dst|)
  {
    var src := prev.columns[s].taskIds;
    var i := IndexOf(src, x);
    assert x !in src[..i];
    assert MoveTask(prev, x, s, e, d, now).value.columns[s].taskIds == src[..i] + src[i + 1..];
  }

  /** `moveTask` as a whole: the optimistic update, then on a failed request a refetch.
      `moveOk` is the request's outcome; `fetched` and `saved` feed the refetch. */
  function MoveAndSync(
    h: Hook, x: Id, s: Id, e: Id, d: int, now: string,
    moveOk: bool, fetched: Option<BoardState>, saved: Option<BoardState>): (r: Option<Hook>)
    ensures r.None? <==> MoveTask(h.board, x, s, e, d, now).None?
    ensures r.Some? && moveOk ==> r.value == h.(board := MoveTask(h.board, x, s, e, d, now).value)
    ensures r.Some? && !moveOk && fetched.Some? ==> r.value == Hook(fetched.value, None)
    ensures r.Some? && !moveOk && fetched.None? && saved.Some? ==> r.value.board == saved.value
    ensures r.Some? && !moveOk && fetched.None? && saved.None? ==>
      r.value.board == MoveTask(h.board, x, s, e, d, now).value
  {
    match MoveTask(h.board, x, s, e, d, now)
    case None => None
    case Some(b) =>
      var optimistic := h.(board := b);
      if moveOk then Some(optimistic) else Some(FetchBoard(optimistic, fetched, saved))
  }

  /** `addTask`: on a created task, its id is appended to the tail of its column.
      `None` means the updater throws because the column is undefined. */
  function AddTask(h: Hook, columnId: Id, created: Option<Task>): (r: Option<Hook>)
    ensures created.None? ==> r == Some(h.(error := Some("Failed to create task")))
    ensures created.Some? ==> (r.None? <==> columnId !in h.board.columns)
    ensures created.Some? && r.Some? ==>
      var b, t := r.value.board, created.value;
      && r.value.error == h.error
      && b.columnOrder == h.board.columnOrder
      && b.tasks == h.board.tasks[t.id := t]
      && b.columns.Keys == h.board.columns.Keys
      && b.columns[columnId].taskIds == h.board.columns[columnId].taskIds + [t.id]
      && b.columns[columnId].id == h.board.columns[columnId].id
      && b.columns[columnId].title == h.board.columns[columnId].title
      && forall c | c in h.board.columns && c != columnId :: b.columns[c] == h.board.columns[c]
  {
    match created
    case None => Some(h.(error := Some("Failed to create task")))
    case Some(t) =>
      if columnId !in h.board.columns then None
      else
        var col := h.board.columns[columnId];
        Some(h.(board := h.board.(
          tasks := h.board.tasks[t.id := t],
          columns := h.board.columns[columnId := col.(taskIds := col.taskIds + [t.id])])))
  }

  /** `updateTask`: the server's answer replaces the task's entry; no column changes. */
  function UpdateTask(h: Hook, x: Id, updated: Option<Task>): (r: Hook)
    ensures updated.None? ==> r == h.(error := Some("Failed to update task"))
    ensures updated.Some? ==>
      && r.error == h.error
      && r.board.tasks == h.board.tasks[x := updated.value]
      && r.board.columns == h.board.columns
      && r.board.columnOrder == h.board.columnOrder
  {
    match updated
    case None => h.(error := Some("Failed to update task"))
    case Some(t) => h.(board := h.board.(tasks := h.board.tasks[x := t]))
  }

  /** `deleteTask`. `seen` is the task map the callback closed over, where the task's
      column is looked up; the update itself works on the current state. `deleted` is the
      server's answer. `None` means the updater throws on an undefined column. */
  function DeleteTask(h: Hook, seen: map<Id, Task>, x: Id, deleted: bool): (r: Option<Hook>)
    ensures x !in seen ==> r == Some(h)
    ensures x in seen && !deleted ==> r == Some(h.(error := Some("Failed to delete task")))
    ensures x in seen && deleted ==> (r.None? <==> seen[x].columnId !in h.board.columns)
    ensures x in seen && deleted && r.Some? ==>
      var b, c := r.value.board, seen[x].columnId;
      && r.value.error == h.error
      && b.columnOrder == h.board.columnOrder
      && b.tasks.Keys == h.board.tasks.Keys - {x}
      && (forall id | id in b.tasks :: b.tasks[id] == h.board.tasks[id])
      && b.columns.Keys == h.board.columns.Keys
      && b.columns[c] == h.board.columns[c].(taskIds := Without(h.board.columns[c].taskIds, x))
      && x !in b.columns[c].taskIds
      && (forall j | 0 <= j < |h.board.columns[c].taskIds| && h.board.columns[c].taskIds[j] != x ::
            h.board.columns[c].taskIds[j] in b.columns[c].taskIds)
      && (forall j | 0 <= j < |b.columns[c].taskIds| :: b.columns[c].taskIds[j] in h.board.columns[c].taskIds)
      && forall c' | c' in h.board.columns && c' != c :: b.columns[c'] == h.board.columns[c']
  {
    if x !in seen then Some(h)
    else if !deleted then Some(h.(error := Some("Failed to delete task")))
    else
      var c := seen[x].columnId;
      if c !in h.board.columns then None
      else
        var col := h.board.columns[c];
        Some(h.(board := h.board.(
          tasks := h.board.tasks - {x},
          columns := h.board.columns[c := col.(taskIds := Without(col.taskIds, x))])))
  }

  /** When the deleted id occurs once in its column, deletion is exactly splicing it out. */
  lemma DeleteSplicesOut(h: Hook, seen: map<Id, Task>, x: Id, i: int)
    requires x in seen && seen[x].columnId in h.board.columns
    requires var ids := h.board.columns[seen[x].columnId].taskIds;
      NoDup(ids) && 0 <= i < |ids| && ids[i] == x
    ensures var r := DeleteTask(h, seen, x, true);
      r.Some? && r.value.board.columns[seen[x].columnId].taskIds
        == RemoveAt(h.board.columns[seen[x].columnId].taskIds, i)
  {
    WithoutSingle(h.board.columns[seen[x].columnId].taskIds, i);
  }
}
